=== FILE: README.md ===
# NPC linking in CMaNGOS, modelled in Dafny

CMaNGOS links creatures (NPCs) to a *master*. The links come from two
database tables. `creature_linking_template` links by creature entry and
map. `creature_linking` links one spawn (database guid) to another. What a
link does is set by a 16-bit flag word:

- a slave joins its master's fight, or leaves, despawns, dies or respawns
  along with it;
- the reverse actions: the slave pulls the master into a fight or respawns it;
- a slave follows its master;
- a slave may spawn only while its master is dead, or only while it is alive.

This project models the linking core of `CreatureLinkingMgr.cpp` and
proves properties of that model. The core has four parts:

- the registry the loader builds from the two tables;
- the per-map holder of live slaves and masters;
- the propagation of lifecycle events (aggro, evade, death, respawn, despawn);
- the passive spawn gate, and the re-follow of a master.

Modules, one file each:

- `LinkingFlags`: the flag bits, the flag validity test and the per-event flag masks.
- `World`: the host as seen by the core. It covers creatures, one map's
  state, the static spawn tables and the planar range test.
- `LinkRegistry`: row validation (`IsLinkingEntryValid`) and the loader
  over the rows of both tables. It also holds the descriptor lookup and the
  trigger and master predicates.
- `LinkingHolder`: slave registration (`AddSlaveToHolder`) and master
  registration (`AddMasterToHolder`).
- `LinkingEvents`: `DoCreatureLinkingEvent`, `ProcessSlaveGuidList` and
  `ProcessSlave`.
  - The effects on creatures are emitted as a sequence of commands, in the
    order the code issues them.
  - The holder comes back updated.
- `SpawnGate`: both `CanSpawn` overloads and `IsRespawnReady`.
- `FollowMaster`: the master selection of `TryFollowMaster`.

Modelling decisions:

- **Flag words.** They are `bv16`, as the loader reads them with `GetUInt16`.
- **Multimaps.** The C++ multimaps are maps from key to sequence. The
  sequence is in insertion order, which is what `equal_range` walks.
- **Time.** The current time is a parameter (`now`).
- **Host queries.** Three host answers are fields of the map state: pool
  membership, the persisted respawn times and "encounter in progress".
- **Re-entrancy guard.** Each group has an `inUse` flag. A group already in
  use is skipped. This is how the model sees an event raised while another
  event is being handled.
- **Behaviour where the code and its documentation differ.** The model
  follows the code:
  - For the respawn event, respawn-on-respawn and despawn-on-respawn are
    exclusive: the code tests them with `else if` (lines 593-601).
  - Master entries are never pruned from the holder. Only slave lists are
    pruned lazily (lines 533-540).
  - Only master registration skips pets (line 385). Slave registration does
    not (lines 328-380).
  - `CanSpawn(Creature*)` does not ask whether the link is spawn-gated. A
    map-wide link without a resolved master therefore gives "may not spawn"
    even when the link has no gate flag (lines 678-686 and 717-720).
    `SpawnGate.CanSpawn` states this exactly.

## Model

| member | source | states |
|---|---|---|
| LinkingFlags.IsValidFlag | src/game/Entities/CreatureLinkingMgr.cpp:218-222 | the loader's bit test accepts a flag word exactly when it is nonzero and below the invalid bit |
| LinkingFlags.EventMask | src/game/Entities/CreatureLinkingMgr.cpp:258-266 | every event's slave mask is a valid flag word; the follow bit belongs to the death and respawn masks only; no mask holds a master-side bit other than follow, or a spawn-gate bit |
| LinkingFlags.ReverseEventMask | src/game/Entities/CreatureLinkingMgr.cpp:418-425 | death and despawn have no master-side action; every master-side filter lies inside the trigger mask and is zero or a single bit |
| LinkingFlags.EventMasksSeparate | src/game/Entities/CreatureLinkingMgr.cpp:258-425 | two different events share no slave-side bit other than follow, and their master-side filters share no bit |
| LinkingFlags.EventMasksCoverSlaveFlags | src/game/Entities/CreatureLinkingMgr.cpp:258-266 | the event masks together hold exactly the follow bit and every valid bit that is neither master-side nor a spawn gate |
| LinkRegistry.ReferenceError | src/game/Entities/CreatureLinkingMgr.cpp:174-216 | a row passes the existence checks exactly when its slave and master exist (and, for a template link, its map is 0 or known; for a guid link, both spawns share a map) |
| LinkRegistry.FlagError | src/game/Entities/CreatureLinkingMgr.cpp:218-229 | a row passes the flag checks exactly when its flag is valid and it does not despawn its own master on respawn; an invalid flag is reported as such |
| LinkRegistry.ResolveUniqueMaster | src/game/Entities/CreatureLinkingMgr.cpp:234-250 | the uniqueness query succeeds exactly when the master entry has one spawn on the map, and then stores that spawn's guid and nothing else |
| LinkRegistry.IsLinkingEntryValid | src/game/Entities/CreatureLinkingMgr.cpp:172-255 | a row is accepted exactly when all checks hold; an accepted descriptor has a valid flag, and differs from the row only in the master guid resolved for map-wide follow/gate links |
| LinkRegistry.AcceptedTemplates | src/game/Entities/CreatureLinkingMgr.cpp:86-113 | every stored template descriptor has a valid flag and a known map, has its unique master resolved when it needs one, and comes from an accepted row of that entry |
| LinkRegistry.AcceptedGuids | src/game/Entities/CreatureLinkingMgr.cpp:132-158 | every stored guid descriptor is valid, carries the sentinel map, is map-wide, names its master's guid, links two spawns on one map and never despawns itself on respawn |
| LinkRegistry.ValidatedTemplateFacts | src/game/Entities/CreatureLinkingMgr.cpp:231-250 | an accepted template row yields a valid flag, a known map and, where needed, the one master spawn |
| LinkRegistry.AddLinkKeepsTriggers | src/game/Entities/CreatureLinkingMgr.cpp:104-110 | storing a descriptor and adding its master to the trigger set keeps "trigger set = masters named by stored descriptors" |
| LinkRegistry.LoadTemplateTable | src/game/Entities/CreatureLinkingMgr.cpp:72-115 | after the template table, each entry maps to its accepted descriptors in table order, and the trigger set holds exactly the masters they name |
| LinkRegistry.LoadGuidTable | src/game/Entities/CreatureLinkingMgr.cpp:117-158 | the same for the guid table, keyed by slave guid |
| LinkRegistry.LoadFromDB | src/game/Entities/CreatureLinkingMgr.cpp:64-162 | the loaded registry holds exactly the accepted rows, its trigger sets are consistent, and it is well formed when no real map uses the sentinel id |
| LinkRegistry.LoadedRegistryWellFormed | src/game/Entities/CreatureLinkingMgr.cpp:92-144 | a registry of accepted rows has only valid flags; template descriptors never carry the sentinel map; guid descriptors always do, are map-wide and name their master guid |
| LinkRegistry.AcceptedTemplatesComplete | src/game/Entities/CreatureLinkingMgr.cpp:100-106 | every template row that passes validation is stored under its entry |
| LinkRegistry.AcceptedGuidsComplete | src/game/Entities/CreatureLinkingMgr.cpp:147-153 | every guid row that passes validation is stored under its guid |
| LinkRegistry.FirstOnMap | src/game/Entities/CreatureLinkingMgr.cpp:317-322 | the template descriptor found is the first of the entry on the creature's map; none means none of them is on that map |
| LinkRegistry.Lookup | src/game/Entities/CreatureLinkingMgr.cpp:309-325 | a guid descriptor of the spawn wins; otherwise a template descriptor of the entry on the map; otherwise none, and then no template descriptor of the entry is on that map |
| LinkRegistry.LookupDomain | src/game/Entities/CreatureLinkingMgr.cpp:138-144 | in a well-formed registry a descriptor found for a creature on a real map carries the sentinel map exactly when it came from the guid table, and is then map-wide with its master guid set |
| LinkRegistry.IsLinkedMaster | src/game/Entities/CreatureLinkingMgr.cpp:288-291 | with consistent trigger sets, a creature is a linked master exactly when some template descriptor names its entry as master |
| LinkRegistry.IsLinkedEventTrigger | src/game/Entities/CreatureLinkingMgr.cpp:269-284 | masters by entry and by guid trigger events, and so does a creature whose own link has a reverse or follow bit; a creature triggers only in one of these three cases |
| LinkRegistry.IsSpawnedByLinkedMob | src/game/Entities/CreatureLinkingMgr.cpp:298-301 | a link is spawn-gated only if it has a gate flag; a scoped link with a gate flag always is; a map-wide link is exactly when it has a gate flag and a resolved master guid |
| LinkRegistry.LoadedGateResolvesMaster | src/game/Entities/CreatureLinkingMgr.cpp:234-250 | a loaded map-wide gate link names the one master spawn on its map, and is spawn-gated whenever that guid is nonzero |
| LinkingHolder.FindGroup | src/game/Entities/CreatureLinkingMgr.cpp:360-369 | the group found is the first one with the slave's key; none means no group has it |
| LinkingHolder.InsertSlave | src/game/Entities/CreatureLinkingMgr.cpp:359-379 | the slave is appended to the one group with its key, or to a new group at the end; every other group and every group's key and guard are unchanged |
| LinkingHolder.InsertSlaveKeepsKeysDistinct | src/game/Entities/CreatureLinkingMgr.cpp:336-355 | inserting keeps one group per key (and guid groups map-wide), and the slave's group is then the only one with its key |
| LinkingHolder.AddSlave | src/game/Entities/CreatureLinkingMgr.cpp:328-380 | a linked slave goes into the guid domain when its descriptor carries the sentinel map, else into the entry domain keyed by flag and range; an unlinked creature changes nothing; masters are untouched |
| LinkingHolder.AddSlaveKeepsInvariant | src/game/Entities/CreatureLinkingMgr.cpp:328-380 | registering a slave keeps the holder invariant: one group per key, guid groups map-wide, no duplicate master |
| LinkingHolder.AddSlaveRegisters | src/game/Entities/CreatureLinkingMgr.cpp:334-379 | after registration the slave is the newest member of the only group under its master key with its descriptor's key |
| LinkingHolder.AddMaster | src/game/Entities/CreatureLinkingMgr.cpp:383-399 | a non-pet linked master not yet listed is appended after the masters already listed under its entry; in every other case the holder is unchanged; other entries and all slave groups are untouched and no duplicates appear |
| LinkingHolder.AddMasterIdempotent | src/game/Entities/CreatureLinkingMgr.cpp:392-396 | registering a master twice equals registering it once |
| LinkingHolder.AddMasterKeepsInvariant | src/game/Entities/CreatureLinkingMgr.cpp:392-398 | registering a master keeps the holder invariant |
| LinkingEvents.SlaveOnAggro | src/game/Entities/CreatureLinkingMgr.cpp:559-575 | a slave with the aggro bit that no player controls gets exactly one combat command against the enemy, joining the fight if it is already fighting and attacking otherwise; any other slave gets nothing |
| LinkingEvents.SlaveOnEvade | src/game/Entities/CreatureLinkingMgr.cpp:576-583 | a live slave is despawned, and sent to evade, exactly under the respective bit; a dead one is respawned exactly under the respawn-on-evade bit; each command is issued at most once and nothing else is issued |
| LinkingEvents.SlaveOnDie | src/game/Entities/CreatureLinkingMgr.cpp:584-591 | a live slave is killed, and despawned, exactly under the respective bit; a dead one is respawned exactly under the respawn-on-death bit; each command is issued at most once and nothing else is issued |
| LinkingEvents.SlaveOnRespawn | src/game/Entities/CreatureLinkingMgr.cpp:592-605 | a dead slave is respawned exactly under respawn-on-respawn unless its nonzero respawn delay has already run out, in which case it is left to respawn by itself; a live slave is despawned exactly under despawn-on-respawn without respawn-on-respawn; a live slave out of combat follows the source exactly under the follow bit; each command is issued at most once and nothing else is issued |
| LinkingEvents.SlaveOnDespawn | src/game/Entities/CreatureLinkingMgr.cpp:606-610 | a slave that is not despawned yet is despawned exactly under the despawn-on-despawn bit, once; nothing else is issued |
| LinkingEvents.ProcessSlave | src/game/Entities/CreatureLinkingMgr.cpp:555-613 | every command acts on the slave and respects its state; flags outside the event's mask do nothing; the respawn precedence and the respawn-storm guard hold |
| LinkingEvents.ProcessSlaveFollowsTable | src/game/Entities/CreatureLinkingMgr.cpp:555-613 | for aggro, evade, death and despawn, the slave receives exactly the commands of that event's row of the action table, each at most once |
| LinkingEvents.RespawnEventActions | src/game/Entities/CreatureLinkingMgr.cpp:592-605 | the respawn event respawns a dead slave exactly under respawn-on-respawn when its delay is zero or its own respawn time lies ahead, despawns a live slave exactly under despawn-on-respawn without respawn-on-respawn, and makes a live slave out of combat follow exactly under the follow bit; each at most once, and nothing else |
| LinkingEvents.ProcessSlaveMasked | src/game/Entities/CreatureLinkingMgr.cpp:434-446 | masking the group flag with the event's mask before the slave walk changes no slave's actions |
| LinkingEvents.SurvivingPrunesExactly | src/game/Entities/CreatureLinkingMgr.cpp:535-540 | the kept list is an order-preserving sublist with exactly the entries that still resolve, counted with multiplicity |
| LinkingEvents.RespawnRequest | src/game/Entities/CreatureLinkingMgr.cpp:528-534 | an entry is handed to the spawn manager, by its database guid, exactly when respawns are preprocessed and the entry has vanished or is a corpse |
| LinkingEvents.EntryActions | src/game/Entities/CreatureLinkingMgr.cpp:528-550 | an entry that resolves to a slave that is no pet and is in range receives exactly that slave's actions for the event; any other entry receives none |
| LinkingEvents.WalkSlaves | src/game/Entities/CreatureLinkingMgr.cpp:526-551 | the walk keeps exactly the surviving entries; without a respawn pre-pass it never calls the spawn manager |
| LinkingEvents.WalkSlavesActsOnEligible | src/game/Entities/CreatureLinkingMgr.cpp:544-550 | every command the walk issues is one of the actions the slave-side table gives an eligible slave of the list (resolving, no pet, in range), or a spawn-manager request for an entry of the list that has vanished or is a corpse, made only when a respawn action was preprocessed |
| LinkingEvents.WalkSlavesReachesEligible | src/game/Entities/CreatureLinkingMgr.cpp:526-551 | every eligible slave of the list receives all of its actions, and with respawns preprocessed every vanished or dead entry is handed to the spawn manager |
| LinkingEvents.PreprocessFlag | src/game/Entities/CreatureLinkingMgr.cpp:518-524 | only respawn actions are handed to the spawn manager, and only under the newer spawning system |
| LinkingEvents.PostprocessFlag | src/game/Entities/CreatureLinkingMgr.cpp:518-524 | the two parts together are the original flags; under the newer system the walk keeps no respawn action |
| LinkingEvents.ProcessSlaveGuidList | src/game/Entities/CreatureLinkingMgr.cpp:513-552 | a zero masked flag changes nothing; otherwise exactly the surviving entries are kept; the spawn manager is called only under the newer system with a respawn flag |
| LinkingEvents.ProcessSlaveGuidListSound | src/game/Entities/CreatureLinkingMgr.cpp:526-551 | the list loses exactly its vanished entries, keeping order; every command is one of the table's actions for an eligible slave under the flags left after preprocessing, or a spawn-manager request for a vanished or corpse entry under the newer spawning system with a respawn action among the flags |
| LinkingEvents.ProcessSlaveGuidListComplete | src/game/Entities/CreatureLinkingMgr.cpp:513-552 | with nonzero flags, every eligible slave receives all the actions the flags left after preprocessing give it, and under the newer system with a respawn flag every vanished or dead entry is handed to the spawn manager |
| LinkingEvents.ProcessGroup | src/game/Entities/CreatureLinkingMgr.cpp:429-437 | a group already in use comes back unchanged and issues nothing; a group not in use whose flags share a bit with the event comes back released with only its surviving entries; every other group comes back unchanged; only a group not in use whose flags meet the event issues commands, each one of the table's actions for an eligible slave of the group or a spawn-manager request for a vanished or corpse entry of it |
| LinkingEvents.ProcessGroups | src/game/Entities/CreatureLinkingMgr.cpp:427-437 | every group under the key keeps its position, flags, range and guard; a group not in use whose flags share a bit with the event keeps only its surviving entries, and every other group comes back unchanged; every command comes from a group not in use whose flags meet the event, and is one of the table's actions for an eligible slave of it or a spawn-manager request for a vanished or corpse entry of it |
| LinkingEvents.GuardedGroupsIssueNothing | src/game/Entities/CreatureLinkingMgr.cpp:429-437 | when every group under a key is already in use, the loop issues no command |
| LinkingEvents.ProcessGroupsIssuesEveryGroup | src/game/Entities/CreatureLinkingMgr.cpp:429-437 | every group under the key that is not in use issues all the commands of its list walk |
| LinkingEvents.SelectMaster | src/game/Entities/CreatureLinkingMgr.cpp:459-468 | the master chosen is the first registered one that resolves and is in range; none means no registered master qualifies |
| LinkingEvents.FindMaster | src/game/Entities/CreatureLinkingMgr.cpp:451-473 | a template link finds a master exactly when some registered master of its entry resolves and is in range of the source, and the one found is in range; a guid link finds exactly the creature spawned from its master guid |
| LinkingEvents.MasterActions | src/game/Entities/CreatureLinkingMgr.cpp:451-509 | at most one master-side command, none without the event's reverse bit; with it, on evade under the newer system a missing or dead master is handed to the spawn manager, and only then; on aggro a found master enters combat exactly when no player controls it; on evade a found master that is not alive is otherwise respawned and a live one gets nothing; on respawn the source follows a found master exactly when it is alive; a missing master gets nothing apart from the spawn-manager case |
| LinkingEvents.DoEvent | src/game/Entities/CreatureLinkingMgr.cpp:402-510 | an ignored event changes nothing; otherwise the groups under the source's entry and guid are swept as for a single key, and all other groups and the master index are unchanged |
| LinkingEvents.GuardedEventOnlyReachesMaster | src/game/Entities/CreatureLinkingMgr.cpp:427-509 | an event raised while every group under the source is already in use issues only the master-side command |
| LinkingEvents.DoEventKeepsInvariant | src/game/Entities/CreatureLinkingMgr.cpp:427-449 | an event keeps the holder invariant |
| LinkingEvents.DoEventIssuesGroupsAndMaster | src/game/Entities/CreatureLinkingMgr.cpp:402-510 | an event that is not ignored issues every command of the list walk of each group under the source that is not in use, in either domain, and ends with the master-side command |
| LinkingEvents.DoEventIssuesOnlyGroupsAndMaster | src/game/Entities/CreatureLinkingMgr.cpp:402-510 | every command of an event that is not ignored is a master-side command, or comes from a group under the source, in either domain, that is not in use and whose flags meet the event, and is one of the table's actions for an eligible slave of that group or a spawn-manager request for a vanished or corpse entry of it |
| LinkingEvents.VanishedSlaveIsPruned | src/game/Entities/CreatureLinkingMgr.cpp:427-552 | once a slave no longer resolves, an event from its master removes it from every group the event processes, among the template groups and among the guid groups |
| World.InRange | src/game/Entities/CreatureLinkingMgr.cpp:641-660 | a zero range links regardless of distance and a creature at the master's own respawn point is always in range; with a positive range, a creature in range is less than the range away along each axis, and a creature less than half the range away along each axis is in range |
| World.InRangeMonotone | src/game/Entities/CreatureLinkingMgr.cpp:647-660 | a wider positive search range keeps every master a narrower one found |
| World.InRangeSymmetric | src/game/Entities/CreatureLinkingMgr.cpp:641-660 | the range test depends only on the two planar respawn positions, in either order |
| SpawnGate.Decide | src/game/Entities/CreatureLinkingMgr.cpp:717-750 | a link without gate flags spawns unless map-wide without a resolved master; a scoped gate always decides |
| SpawnGate.MapWideDecision | src/game/Entities/CreatureLinkingMgr.cpp:717-733 | no master guid: never; dead-gate: never during an encounter, otherwise exactly the master's readiness to respawn; alive-gate: exactly the negation of the master's readiness, undecided when that is |
| SpawnGate.ScopedDecision | src/game/Entities/CreatureLinkingMgr.cpp:735-750 | with no registered master in range the creature spawns; otherwise the first one in range blocks exactly when its liveness matches the gate |
| SpawnGate.IsRespawnReady | src/game/Entities/CreatureLinkingMgr.cpp:663-675 | a spawn is ready exactly when its respawn time passed, its own gate permits it and its pool chose it; undecided exactly when the time passed and its own gate is undecided |
| SpawnGate.CanSpawnByGuid | src/game/Entities/CreatureLinkingMgr.cpp:699-715 | a missing, unlinked or not spawn-gated spawn may spawn; a gated one needs a recursion step |
| SpawnGate.CanSpawn | src/game/Entities/CreatureLinkingMgr.cpp:678-686 | an unlinked creature spawns; a linked one without gate flags spawns exactly unless its link is map-wide without a resolved master |
| SpawnGate.DecideFuelMonotone | src/game/Entities/CreatureLinkingMgr.cpp:699-751 | once the gate decides, more fuel gives the same answer |
| SpawnGate.MapWideFuelMonotone | src/game/Entities/CreatureLinkingMgr.cpp:717-733 | the same for the map-wide gate |
| SpawnGate.IsRespawnReadyFuelMonotone | src/game/Entities/CreatureLinkingMgr.cpp:663-675 | the same for the readiness check |
| SpawnGate.CanSpawnByGuidFuelMonotone | src/game/Entities/CreatureLinkingMgr.cpp:699-715 | the same for the guid overload |
| SpawnGate.AcyclicGateDecides | src/game/Entities/CreatureLinkingMgr.cpp:663-733 | when the chain of map-wide gate masters from a spawn ends within k steps, the recursion decides with k + 1 steps |
| SpawnGate.SelfGatedNeverDecides | src/game/Entities/CreatureLinkingMgr.cpp:717-733 | a spawn gated map-wide on itself by the alive-gate, past its respawn time, recurses without end |
| SpawnGate.SelfGatedRowIsAccepted | src/game/Entities/CreatureLinkingMgr.cpp:196-229 | the loader accepts such a self-gated guid row for any existing spawn |
| SpawnGate.MapWideGatesComplementary | src/game/Entities/CreatureLinkingMgr.cpp:722-732 | outside an encounter, the dead-gate and the alive-gate on one master give opposite answers |
| SpawnGate.OverloadsAgree | src/game/Entities/CreatureLinkingMgr.cpp:678-715 | for a spawn-gated creature at its stored spawn point, both overloads give the same answer |
| SpawnGate.ScopedGateDecidedByFirstMaster | src/game/Entities/CreatureLinkingMgr.cpp:735-750 | a scoped creature with no master in range spawns; otherwise the first in-range master's liveness decides |
| FollowMaster.ProbeMasters | src/game/Entities/CreatureLinkingMgr.cpp:763-769 | the loop as written agrees with the first-in-range selection when some master qualifies; otherwise it yields the last creature probed |
| FollowMaster.TryFollowMasterAsWritten | src/game/Entities/CreatureLinkingMgr.cpp:754-783 | without a follow link nothing happens; the command makes the creature follow; for guid links, or when some master is in range, it equals the corrected version |
| FollowMaster.TryFollowMaster | src/game/Entities/CreatureLinkingMgr.cpp:754-783 | the creature follows exactly when it has a follow link and its selected master is alive; a template-link master followed is always in range |
| FollowMaster.TryFollowMasterMatchesRespawnEvent | src/game/Entities/CreatureLinkingMgr.cpp:499-502 | re-following issues exactly the master-side command of the respawn event |
| FollowMaster.AsWrittenFollowsOutOfRangeMaster | src/game/Entities/CreatureLinkingMgr.cpp:763-769 | with its only master 200 yards away and a 150-yard range, the code as written still makes the creature follow; the corrected version does not |

## Left out

- `LoadFromDB`: the two queries, logging and the progress bar are left out.
  The loader is modelled over the row lists the queries return.
- The spawn, template and map tables are inputs (`WorldDb`), read-only.
- The flag bit values come from the `CreatureLinkingFlags` enum in
  `CreatureLinkingMgr.h`. That header is not part of this model. The proofs
  rely only on the named flags being distinct single bits below the invalid
  bit, which `LinkingFlags.NamedFlagsAreDistinctValidBits` proves for the
  values used.
- `SetFollowing`: the distance and angle geometry (`sqrt`, `atan2`, the
  bounding radii) is floating point and is left out. Only the follow command
  and its two creatures are modelled.
- `IsSlaveInRangeOfMaster` is modelled over exact reals, so float rounding
  is not modelled. The code's `searchRange * searchRange` is a 32-bit signed
  product, which overflows for ranges above 46340; the model squares
  unbounded integers.
- Combat internals (threat, combat timers, `AttackStart`), creature AI,
  `Respawn`, `ForcedDespawn`, `Suicide` and the spawn manager are host
  calls. They are emitted as commands, and their effects are not modelled.
- Commands are applied by the host after the model computes them. Every
  check in one propagation reads the state as it was when the event began.
  In the code, a despawn or respawn can change a creature's state before a
  later check in the same propagation.
- Events that the host raises while a propagation is running, and the guard
  states they would observe, are not modelled. The model takes the holder
  as given, with some groups possibly in use already.
- Pool membership, persisted respawn times and the instance's "encounter in
  progress" answer are fields of `MapState`. A map without instance data
  has no encounter in progress.
- ProcessSlave: its own contract states the bounds every event's actions
  keep; the per-event rows of the action table are stated by
  `ProcessSlaveFollowsTable` and `RespawnEventActions`, which keeps the
  function's own proof small.
- SlaveOnEvade: the contract states which commands a slave receives, not
  their order within its list.
- SlaveOnDie: likewise, which commands, not their order.
- WalkSlaves: its contract states the kept list and the spawn-manager
  gating; which commands it issues is stated by `WalkSlavesActsOnEligible`
  and `WalkSlavesReachesEligible`.
- ProcessSlaveGuidList: likewise, its commands are stated by
  `ProcessSlaveGuidListSound` and `ProcessSlaveGuidListComplete`.
- SpawnGate.CanSpawnByGuid: the recursion runs on fuel. `None` means the
  fuel ran out, where the code would keep recursing.
- The world scripts that call into linking (`go_scripts.cpp`,
  `stratholmeScripts.cpp`) are content glue and are not part of this model.
- Singleton plumbing and the `Creature*` overloads that
  only forward to their descriptor counterparts are not modelled.

## Findings

| source | as written | input that shows it | evidently intended | confidence | as-written member | corrected member |
|---|---|---|---|---|---|---|
| src/game/Entities/CreatureLinkingMgr.cpp:763-769 | the search loop stores every probed creature in `pMaster` before the range test, so when no registered master is in range `pMaster` is the last one probed | a template follow link with search range 150 whose only registered master is alive 200 yards from the slave's respawn point: `TryFollowMaster` makes the slave follow it | follow only the first live master in range, as `DoCreatureLinkingEvent` selects it (lines 459-468) | not executed | FollowMaster.AsWrittenFollowsOutOfRangeMaster | FollowMaster.TryFollowMaster |

=== FILE: FollowMaster.dfy ===
/**
 * `TryFollowMaster`: a slave with the follow flag looks for its master and,
 * when it finds it alive, follows it. Only the master selection and the
 * follow command are modelled; the follow geometry stays with the host.
 *
 * The code's search loop assigns every probed creature to the result before
 * testing its range, so when no registered master is in range the slave is
 * sent after the last one probed, wherever it stands. `TryFollowMasterAsWritten`
 * keeps that loop; `TryFollowMaster` selects the master the way
 * `DoCreatureLinkingEvent` does, which is what the range check evidently
 * intends.
 */
module FollowMaster {
  import opened Wrappers
  import opened LinkingFlags
  import opened World
  import opened LinkRegistry
  import opened LinkingHolder
  import opened LinkingEvents

  /**
   * The search loop as written: each registered master is fetched into the
   * result, and the loop stops at the first that resolves and is in range.
   * It agrees with `SelectMaster` when some master qualifies; otherwise it
   * leaves the last probe (which may be a creature out of range).
   */
  function ProbeMasters(w: MapState, guids: seq<ObjGuid>, sx: real, sy: real, range: nat,
                        current: Option<Creature>): (r: Option<Creature>)
    ensures SelectMaster(w, guids, sx, sy, range).Some? ==> r == SelectMaster(w, guids, sx, sy, range)
    ensures SelectMaster(w, guids, sx, sy, range).None? ==>
              r == if guids == [] then current else GetCreature(w, guids[|guids| - 1])
    decreases |guids|
  {
    if guids == [] then current
    else
      var probe := GetCreature(w, guids[0]);
      if probe.Some? && InRange(range, sx, sy, probe.value.home) then probe
      else
        var r := ProbeMasters(w, guids[1..], sx, sy, range, probe);
        assert guids[1..] != [] ==> guids[1..][|guids[1..]| - 1] == guids[|guids| - 1];
        r
  }

  /** The descriptor of a creature whose link carries the follow flag. */
  function FollowLink(reg: Registry, c: Creature): Option<LinkInfo> {
    match LookupCreature(reg, c)
    case None => None
    case Some(info) => if Has(info.flag, Follow) then Some(info) else None
  }

  /**
   * `TryFollowMaster` as written: the follow command, when the code issues
   * one. Whenever some registered master is in range (and always for guid
   * links) it issues the same command as the corrected version.
   */
  function TryFollowMasterAsWritten(reg: Registry, h: Holder, w: MapState, c: Creature): (r: Option<Command>)
    ensures FollowLink(reg, c).None? ==> r.None?
    ensures r.Some? ==> r.value.MoveFollow? && r.value.follower == c.guid
    ensures var link := FollowLink(reg, c);
            link.Some? && (link.value.mapId == InvalidMapId || FindMaster(h, w, c, link.value).Some?) ==>
              r == TryFollowMaster(reg, h, w, c)
  {
    match FollowLink(reg, c)
    case None => None
    case Some(info) =>
      var master :=
        if info.mapId != InvalidMapId then
          ProbeMasters(w, Masters(h.masters, info.masterId), c.home.x, c.home.y, info.searchRange, None)
        else GetCreatureByDbGuid(w, info.masterDbGuid);
      if master.Some? && master.value.IsAlive() then Some(MoveFollow(c.guid, master.value.guid)) else None
  }

  /**
   * `TryFollowMaster`, with the master chosen as the linking events choose
   * it: the slave follows only a live master that is, for a template link,
   * the first registered one in range of its respawn position.
   */
  function TryFollowMaster(reg: Registry, h: Holder, w: MapState, c: Creature): (r: Option<Command>)
    ensures r.Some? <==> FollowLink(reg, c).Some? && FindMaster(h, w, c, FollowLink(reg, c).value).Some?
                         && FindMaster(h, w, c, FollowLink(reg, c).value).value.IsAlive()
    ensures r.Some? ==>
              var info := FollowLink(reg, c).value;
              var m := FindMaster(h, w, c, info).value;
              && r.value == MoveFollow(c.guid, m.guid)
              && (info.mapId != InvalidMapId ==> InRange(info.searchRange, c.home.x, c.home.y, m.home))
  {
    match FollowLink(reg, c)
    case None => None
    case Some(info) =>
      var master := FindMaster(h, w, c, info);
      if master.Some? && master.value.IsAlive() then Some(MoveFollow(c.guid, master.value.guid)) else None
  }

  /**
   * Re-following uses the same master, and the same liveness test, as the
   * master direction of the respawn event.
   */
  lemma TryFollowMasterMatchesRespawnEvent(reg: Registry, h: Holder, w: MapState, c: Creature)
    ensures var acts := MasterActions(reg, h, w, OnRespawn, c, None);
            match TryFollowMaster(reg, h, w, c)
            case None => acts == []
            case Some(cmd) => acts == [cmd]
  {
  }

  const SlaveEntry: nat := 1
  const MasterEntry: nat := 2
  const OnMap: nat := 1
  const MasterObject: ObjGuid := 7

  /** A slave at the origin linked to entry `MasterEntry` within 150 yards, following. */
  const FarSlave: Creature :=
    Creature(6, SlaveEntry, 60, OnMap, Alive, false, false, false, false, 300, 0, Pos(0.0, 0.0, 0.0))
  /** The only registered master, alive, 200 yards away. */
  const FarMaster: Creature :=
    Creature(MasterObject, MasterEntry, 70, OnMap, Alive, false, false, false, false, 300, 0, Pos(200.0, 0.0, 0.0))

  const FarRegistry: Registry :=
    Registry(map[SlaveEntry := [LinkInfo(OnMap, MasterEntry, Follow, 150, 0)]], map[], {MasterEntry}, {})
  const FarHolder: Holder := Holder(map[], map[], map[MasterEntry := [MasterObject]])
  const FarWorld: MapState := MapState(map[MasterObject := FarMaster], map[70 := MasterObject], map[], {}, {}, false)

  /**
   * The discrepancy: with its only master out of range, the slave still
   * follows it under the code as written, but not under the range check's
   * intent.
   */
  lemma AsWrittenFollowsOutOfRangeMaster()
    ensures !InRange(150, FarSlave.home.x, FarSlave.home.y, FarMaster.home)
    ensures TryFollowMasterAsWritten(FarRegistry, FarHolder, FarWorld, FarSlave) == Some(MoveFollow(6, MasterObject))
    ensures TryFollowMaster(FarRegistry, FarHolder, FarWorld, FarSlave) == None
  {
    assert LookupCreature(FarRegistry, FarSlave) == Some(LinkInfo(OnMap, MasterEntry, Follow, 150, 0));
    assert SquaredPlanarDistance(0.0, 0.0, FarMaster.home) == 40000.0;
    assert !MasterCandidate(FarWorld, MasterObject, 0.0, 0.0, 150);
    assert Masters(FarHolder.masters, MasterEntry) == [MasterObject];
  }
}

=== FILE: LinkRegistry.dfy ===
/**
 * The load-time registry of creature links (`CreatureLinkingMgr`).
 *
 * Two tables feed it: `creature_linking_template` links every spawn of a
 * creature entry on one map to a master entry, and `creature_linking` links
 * one spawned creature (database guid) to one master guid. Both kinds of
 * descriptor share one record type; a guid-scoped descriptor carries the
 * sentinel map id `InvalidMapId`.
 */
module LinkRegistry {
  import opened Wrappers
  import opened LinkingFlags
  import opened World

  /** `INVALID_MAP_ID`: marks a descriptor loaded from `creature_linking`. */
  const InvalidMapId: nat := 0xFFFF_FFFF

  type U16 = x: nat | x < 0x1_0000

  /** A row of `creature_linking_template`: entry, map, master_entry, flag, search_range. */
  datatype TemplateRow = TemplateRow(entry: nat, mapId: nat, masterEntry: nat, flag: Flags, searchRange: U16)

  /** A row of `creature_linking`: guid, master_guid, flag. */
  datatype GuidRow = GuidRow(guid: nat, masterGuid: nat, flag: Flags)

  /**
   * `CreatureLinkingInfo`. `masterId` is a master entry (template links) or a
   * master database guid (guid links); `masterDbGuid` is the resolved unique
   * master spawn, or 0 when none was resolved.
   */
  datatype LinkInfo = LinkInfo(mapId: nat, masterId: nat, flag: Flags, searchRange: U16, masterDbGuid: nat)

  /** Why the loader skipped a row; each is one error message of the loader. */
  datatype Rejection =
    | MissingSlave
    | MissingMaster
    | MissingMap
    | DifferentMaps
    | InvalidFlag
    | SelfDespawnOnRespawn
    | NoMasterSpawn
    | NonUniqueMaster

  /** The descriptor a template row starts as, before validation (no master guid yet). */
  function TemplateInfo(row: TemplateRow): LinkInfo {
    LinkInfo(row.mapId, row.masterEntry, row.flag, row.searchRange, 0)
  }

  /** The descriptor a guid row starts as: sentinel map, map-wide, master guid known. */
  function GuidInfo(row: GuidRow): LinkInfo {
    LinkInfo(InvalidMapId, row.masterGuid, row.flag, 0, row.masterGuid)
  }

  /** Answer of `SELECT guid FROM creature WHERE id = master AND map = map`. */
  function MasterSpawns(db: WorldDb, masterEntry: nat, mapId: nat): set<nat> {
    set g | g in db.spawns && db.spawns[g].id == masterEntry && db.spawns[g].mapId == mapId
  }

  function SoleElement(s: set<nat>): (r: nat)
    requires |s| == 1
    ensures s == {r}
  {
    var x :| x in s;
    assert |s - {x}| == 0;
    assert s - {x} == {};
    x
  }

  /** A template link whose master must be unique because it is map-wide and follows or gates spawning. */
  predicate NeedsUniqueMaster(tmp: LinkInfo, byEntry: bool) {
    byEntry && tmp.searchRange == 0 && Has(tmp.flag, UniqueMasterFlags)
  }

  /** The slave, the master and (for template links) the map must exist; guid links stay on one map. */
  predicate ReferencesExist(slaveKey: nat, tmp: LinkInfo, byEntry: bool, db: WorldDb) {
    if byEntry then
      slaveKey in db.templates && tmp.masterId in db.templates && (tmp.mapId == 0 || tmp.mapId in db.maps)
    else
      slaveKey in db.spawns && tmp.masterId in db.spawns && db.spawns[slaveKey].mapId == db.spawns[tmp.masterId].mapId
  }

  /** The flag word is valid and a link does not despawn its own master on respawn. */
  predicate FlagsAcceptable(slaveKey: nat, tmp: LinkInfo) {
    IsValidFlag(tmp.flag) && !(Has(tmp.flag, DespawnOnRespawn) && slaveKey == tmp.masterId)
  }

  /** Everything the loader demands of a row, stated as one conjunction. */
  predicate Acceptable(slaveKey: nat, tmp: LinkInfo, byEntry: bool, db: WorldDb) {
    && ReferencesExist(slaveKey, tmp, byEntry, db)
    && FlagsAcceptable(slaveKey, tmp)
    && (NeedsUniqueMaster(tmp, byEntry) ==> |MasterSpawns(db, tmp.masterId, tmp.mapId)| == 1)
  }

  /** The existence checks of the loader, in its order. */
  function ReferenceError(slaveKey: nat, tmp: LinkInfo, byEntry: bool, db: WorldDb): (e: Option<Rejection>)
    ensures e.None? <==> ReferencesExist(slaveKey, tmp, byEntry, db)
  {
    if byEntry then
      if slaveKey !in db.templates then Some(MissingSlave)
      else if tmp.masterId !in db.templates then Some(MissingMaster)
      else if tmp.mapId != 0 && tmp.mapId !in db.maps then Some(MissingMap)
      else None
    else
      if slaveKey !in db.spawns then Some(MissingSlave)
      else if tmp.masterId !in db.spawns then Some(MissingMaster)
      else if db.spawns[slaveKey].mapId != db.spawns[tmp.masterId].mapId then Some(DifferentMaps)
      else None
  }

  /** The flag checks of the loader, in its order. */
  function FlagError(slaveKey: nat, tmp: LinkInfo): (e: Option<Rejection>)
    ensures e.None? <==> FlagsAcceptable(slaveKey, tmp)
    ensures !IsValidFlag(tmp.flag) ==> e == Some(InvalidFlag)
  {
    if !IsValidFlag(tmp.flag) then Some(InvalidFlag)
    else if Has(tmp.flag, DespawnOnRespawn) && slaveKey == tmp.masterId then Some(SelfDespawnOnRespawn)
    else None
  }

  /** The uniqueness query of a map-wide template link that follows or gates spawning. */
  function ResolveUniqueMaster(tmp: LinkInfo, db: WorldDb): (r: Result<LinkInfo, Rejection>)
    ensures r.Ok? <==> |MasterSpawns(db, tmp.masterId, tmp.mapId)| == 1
    ensures r.Ok? ==> r.value == tmp.(masterDbGuid := r.value.masterDbGuid)
                      && MasterSpawns(db, tmp.masterId, tmp.mapId) == {r.value.masterDbGuid}
  {
    var masters := MasterSpawns(db, tmp.masterId, tmp.mapId);
    if |masters| == 0 then Err(NoMasterSpawn)
    else if |masters| > 1 then Err(NonUniqueMaster)
    else Ok(tmp.(masterDbGuid := SoleElement(masters)))
  }

  /**
   * `IsLinkingEntryValid`: accepts a row exactly when it is `Acceptable`;
   * the accepted descriptor differs from the input at most in its resolved
   * master guid, which is set precisely for links that need a unique master.
   */
  function IsLinkingEntryValid(slaveKey: nat, tmp: LinkInfo, byEntry: bool, db: WorldDb): (r: Result<LinkInfo, Rejection>)
    ensures r.Ok? <==> Acceptable(slaveKey, tmp, byEntry, db)
    ensures r.Ok? ==> IsValidFlag(r.value.flag)
    ensures r.Ok? && NeedsUniqueMaster(tmp, byEntry) ==>
              r.value == tmp.(masterDbGuid := r.value.masterDbGuid)
              && MasterSpawns(db, tmp.masterId, tmp.mapId) == {r.value.masterDbGuid}
    ensures r.Ok? && !NeedsUniqueMaster(tmp, byEntry) ==> r.value == tmp
  {
    match ReferenceError(slaveKey, tmp, byEntry, db)
    case Some(e) => Err(e)
    case None =>
      match FlagError(slaveKey, tmp)
      case Some(e) => Err(e)
      case None =>
        if byEntry && tmp.searchRange == 0 && Has(tmp.flag, UniqueMasterFlags) then ResolveUniqueMaster(tmp, db)
        else Ok(tmp)
  }

  function ValidateTemplate(row: TemplateRow, db: WorldDb): Result<LinkInfo, Rejection> {
    IsLinkingEntryValid(row.entry, TemplateInfo(row), true, db)
  }

  function ValidateGuid(row: GuidRow, db: WorldDb): Result<LinkInfo, Rejection> {
    IsLinkingEntryValid(row.guid, GuidInfo(row), false, db)
  }

  /** The registry: both multimaps (key to descriptors in table order) and both master sets. */
  datatype Registry = Registry(
    entryLinks: map<nat, seq<LinkInfo>>,
    guidLinks: map<nat, seq<LinkInfo>>,
    eventTriggers: set<nat>,
    eventGuidTriggers: set<nat>)

  /** `equal_range` on a multimap. */
  function Links(m: map<nat, seq<LinkInfo>>, k: nat): seq<LinkInfo> {
    if k in m then m[k] else []
  }

  /** A map-wide link that follows or gates spawning names the one spawn of its master entry on its map. */
  predicate UniqueMasterResolved(db: WorldDb, info: LinkInfo) {
    info.searchRange == 0 && Has(info.flag, UniqueMasterFlags) ==>
      MasterSpawns(db, info.masterId, info.mapId) == {info.masterDbGuid}
  }

  /**
   * Reference definition of the template multimap: the accepted descriptors
   * of rows with entry `k`, in table order.
   */
  function AcceptedTemplates(rows: seq<TemplateRow>, db: WorldDb, k: nat): (r: seq<LinkInfo>)
    ensures forall i :: 0 <= i < |r| ==> IsValidFlag(r[i].flag)
    ensures forall i :: 0 <= i < |r| ==> r[i].mapId == 0 || r[i].mapId in db.maps
    ensures forall i :: 0 <= i < |r| ==> UniqueMasterResolved(db, r[i])
    ensures forall i :: 0 <= i < |r| ==> FromTemplateRow(rows, db, k, r[i])
  {
    if rows == [] then []
    else
      var last := rows[|rows| - 1];
      var v := ValidateTemplate(last, db);
      var prefix := AcceptedTemplates(rows[..|rows| - 1], db, k);
      assert forall i :: 0 <= i < |prefix| ==> FromTemplateRow(rows, db, k, prefix[i]) by {
        var front := rows[..|rows| - 1];
        forall i | 0 <= i < |prefix| ensures FromTemplateRow(rows, db, k, prefix[i]) {
          assert FromTemplateRow(front, db, k, prefix[i]);
          var j :| 0 <= j < |front| && front[j].entry == k && ValidateTemplate(front[j], db) == Ok(prefix[i]);
          assert rows[j] == front[j];
        }
      }
      if last.entry == k && v.Ok? then
        ValidatedTemplateFacts(last, db);
        assert FromTemplateRow(rows, db, k, v.value);
        var r := prefix + [v.value];
        assert forall i :: 0 <= i < |prefix| ==> r[i] == prefix[i];
        assert r[|prefix|] == v.value;
        r
      else prefix
  }

  /** `info` is the accepted descriptor of some row of the table with entry `k`. */
  ghost predicate FromTemplateRow(rows: seq<TemplateRow>, db: WorldDb, k: nat, info: LinkInfo) {
    exists j :: 0 <= j < |rows| && rows[j].entry == k && ValidateTemplate(rows[j], db) == Ok(info)
  }

  /** What an accepted template row's descriptor satisfies. */
  lemma ValidatedTemplateFacts(row: TemplateRow, db: WorldDb)
    requires ValidateTemplate(row, db).Ok?
    ensures var info := ValidateTemplate(row, db).value;
            && IsValidFlag(info.flag)
            && (info.mapId == 0 || info.mapId in db.maps)
            && UniqueMasterResolved(db, info)
  {
    var tmp := TemplateInfo(row);
    var info := ValidateTemplate(row, db).value;
    assert ReferencesExist(row.entry, tmp, true, db);
    if info.searchRange == 0 && Has(info.flag, UniqueMasterFlags) {
      assert NeedsUniqueMaster(tmp, true);
    }
  }

  /** Reference definition of the guid multimap: accepted descriptors of rows with guid `k`, in table order. */
  function AcceptedGuids(rows: seq<GuidRow>, db: WorldDb, k: nat): (r: seq<LinkInfo>)
    ensures forall i :: 0 <= i < |r| ==>
              IsValidFlag(r[i].flag) && r[i].mapId == InvalidMapId && r[i].searchRange == 0
              && r[i].masterDbGuid == r[i].masterId
    ensures r != [] ==> k in db.spawns
    ensures forall i :: 0 <= i < |r| ==>
              k in db.spawns && r[i].masterId in db.spawns
              && db.spawns[k].mapId == db.spawns[r[i].masterId].mapId
    ensures forall i :: 0 <= i < |r| ==> !(Has(r[i].flag, DespawnOnRespawn) && r[i].masterId == k)
  {
    if rows == [] then []
    else
      var last := rows[|rows| - 1];
      var v := ValidateGuid(last, db);
      var prefix := AcceptedGuids(rows[..|rows| - 1], db, k);
      if last.guid == k && v.Ok? then
        assert v.value == GuidInfo(last) && ReferencesExist(k, GuidInfo(last), false, db)
               && FlagsAcceptable(k, GuidInfo(last));
        prefix + [v.value]
      else prefix
  }

  predicate NamesMaster(s: seq<LinkInfo>, x: nat) {
    exists i :: 0 <= i < |s| && s[i].masterId == x
  }

  /** The master sets hold exactly the masters some stored descriptor names. */
  ghost predicate TriggersConsistent(reg: Registry) {
    MasterSetMatches(reg.entryLinks, reg.eventTriggers) && MasterSetMatches(reg.guidLinks, reg.eventGuidTriggers)
  }

  ghost predicate MasterSetMatches(m: map<nat, seq<LinkInfo>>, masters: set<nat>) {
    forall x :: x in masters <==> exists k :: k in m && NamesMaster(m[k], x)
  }

  /**
   * What every loaded registry satisfies when no map carries the sentinel id:
   * valid flags everywhere, template descriptors never carry the sentinel,
   * guid descriptors always do and are map-wide with their master guid set.
   */
  ghost predicate WellFormed(reg: Registry) {
    && (forall k, info :: k in reg.entryLinks && info in reg.entryLinks[k] ==>
          IsValidFlag(info.flag) && info.mapId != InvalidMapId)
    && (forall k, info :: k in reg.guidLinks && info in reg.guidLinks[k] ==>
          IsValidFlag(info.flag) && info.mapId == InvalidMapId && info.searchRange == 0
          && info.masterDbGuid == info.masterId)
    && TriggersConsistent(reg)
  }

  lemma NamesMasterAppend(s: seq<LinkInfo>, v: LinkInfo, x: nat)
    ensures NamesMaster(s + [v], x) <==> NamesMaster(s, x) || v.masterId == x
  {
    if NamesMaster(s, x) {
      var i :| 0 <= i < |s| && s[i].masterId == x;
      assert (s + [v])[i] == s[i];
    }
    if v.masterId == x {
      assert (s + [v])[|s|] == v;
    }
    if NamesMaster(s + [v], x) {
      var i :| 0 <= i < |s + [v]| && (s + [v])[i].masterId == x;
      if i < |s| {
        assert s[i] == (s + [v])[i];
      }
    }
  }

  /** Adding one accepted descriptor and its master keeps the master set consistent. */
  lemma AddLinkKeepsTriggers(m: map<nat, seq<LinkInfo>>, triggers: set<nat>, key: nat, v: LinkInfo)
    requires MasterSetMatches(m, triggers)
    ensures MasterSetMatches(m[key := Links(m, key) + [v]], triggers + {v.masterId})
  {
    var m' := m[key := Links(m, key) + [v]];
    forall x
      ensures x in triggers + {v.masterId} <==> exists k :: k in m' && NamesMaster(m'[k], x)
    {
      NamesMasterAppend(Links(m, key), v, x);
      if x in triggers {
        var k :| k in m && NamesMaster(m[k], x);
        assert k in m' && NamesMaster(m'[k], x);
      }
      if x == v.masterId {
        assert key in m' && NamesMaster(m'[key], x);
      }
      if exists k :: k in m' && NamesMaster(m'[k], x) {
        var k :| k in m' && NamesMaster(m'[k], x);
        if k != key {
          assert k in m && NamesMaster(m[k], x);
        }
      }
    }
  }

  /**
   * The `creature_linking_template` half of `LoadFromDB`: each row is
   * validated on its own; an accepted descriptor is stored under its entry in
   * table order and its master entry becomes an event trigger.
   */
  method LoadTemplateTable(rows: seq<TemplateRow>, db: WorldDb) returns (links: map<nat, seq<LinkInfo>>, triggers: set<nat>)
    ensures forall k :: Links(links, k) == AcceptedTemplates(rows, db, k)
    ensures MasterSetMatches(links, triggers)
  {
    links, triggers := map[], {};
    var i := 0;
    while i < |rows|
      invariant 0 <= i <= |rows|
      invariant forall k :: Links(links, k) == AcceptedTemplates(rows[..i], db, k)
      invariant MasterSetMatches(links, triggers)
    {
      var row := rows[i];
      var v := ValidateTemplate(row, db);
      assert rows[..i + 1][..i] == rows[..i];
      if v.Ok? {
        AddLinkKeepsTriggers(links, triggers, row.entry, v.value);
        links := links[row.entry := Links(links, row.entry) + [v.value]];
        triggers := triggers + {v.value.masterId};
      }
      i := i + 1;
    }
    assert rows[..i] == rows;
  }

  /** The `creature_linking` half of `LoadFromDB`, keyed by slave guid. */
  method LoadGuidTable(rows: seq<GuidRow>, db: WorldDb) returns (links: map<nat, seq<LinkInfo>>, triggers: set<nat>)
    ensures forall k :: Links(links, k) == AcceptedGuids(rows, db, k)
    ensures MasterSetMatches(links, triggers)
  {
    links, triggers := map[], {};
    var i := 0;
    while i < |rows|
      invariant 0 <= i <= |rows|
      invariant forall k :: Links(links, k) == AcceptedGuids(rows[..i], db, k)
      invariant MasterSetMatches(links, triggers)
    {
      var row := rows[i];
      var v := ValidateGuid(row, db);
      assert rows[..i + 1][..i] == rows[..i];
      if v.Ok? {
        AddLinkKeepsTriggers(links, triggers, row.guid, v.value);
        links := links[row.guid := Links(links, row.guid) + [v.value]];
        triggers := triggers + {v.value.masterId};
      }
      i := i + 1;
    }
    assert rows[..i] == rows;
  }

  /** `LoadFromDB` over the rows its two queries return. */
  method LoadFromDB(templateRows: seq<TemplateRow>, guidRows: seq<GuidRow>, db: WorldDb) returns (reg: Registry)
    ensures forall k :: Links(reg.entryLinks, k) == AcceptedTemplates(templateRows, db, k)
    ensures forall k :: Links(reg.guidLinks, k) == AcceptedGuids(guidRows, db, k)
    ensures TriggersConsistent(reg)
    ensures InvalidMapId !in db.maps ==> WellFormed(reg)
  {
    var entryLinks, triggers := LoadTemplateTable(templateRows, db);
    var guidLinks, guidTriggers := LoadGuidTable(guidRows, db);
    reg := Registry(entryLinks, guidLinks, triggers, guidTriggers);
    if InvalidMapId !in db.maps {
      LoadedRegistryWellFormed(reg, templateRows, guidRows, db);
    }
  }

  /** A registry holding exactly the accepted rows is well formed when no map uses the sentinel id. */
  lemma LoadedRegistryWellFormed(reg: Registry, templateRows: seq<TemplateRow>, guidRows: seq<GuidRow>, db: WorldDb)
    requires InvalidMapId !in db.maps
    requires forall k :: Links(reg.entryLinks, k) == AcceptedTemplates(templateRows, db, k)
    requires forall k :: Links(reg.guidLinks, k) == AcceptedGuids(guidRows, db, k)
    requires TriggersConsistent(reg)
    ensures WellFormed(reg)
  {
    forall k, info | k in reg.entryLinks && info in reg.entryLinks[k]
      ensures IsValidFlag(info.flag) && info.mapId != InvalidMapId
    {
      assert Links(reg.entryLinks, k) == AcceptedTemplates(templateRows, db, k);
    }
    forall k, info | k in reg.guidLinks && info in reg.guidLinks[k]
      ensures IsValidFlag(info.flag) && info.mapId == InvalidMapId && info.searchRange == 0
              && info.masterDbGuid == info.masterId
    {
      assert Links(reg.guidLinks, k) == AcceptedGuids(guidRows, db, k);
    }
  }

  /** Every row that passes validation ends up stored under its key. */
  lemma {:induction false} AcceptedTemplatesComplete(rows: seq<TemplateRow>, db: WorldDb, j: nat)
    requires j < |rows| && ValidateTemplate(rows[j], db).Ok?
    ensures ValidateTemplate(rows[j], db).value in AcceptedTemplates(rows, db, rows[j].entry)
  {
    if j < |rows| - 1 {
      assert rows[..|rows| - 1][j] == rows[j];
      AcceptedTemplatesComplete(rows[..|rows| - 1], db, j);
    }
  }

  lemma {:induction false} AcceptedGuidsComplete(rows: seq<GuidRow>, db: WorldDb, j: nat)
    requires j < |rows| && ValidateGuid(rows[j], db).Ok?
    ensures ValidateGuid(rows[j], db).value in AcceptedGuids(rows, db, rows[j].guid)
  {
    if j < |rows| - 1 {
      assert rows[..|rows| - 1][j] == rows[j];
      AcceptedGuidsComplete(rows[..|rows| - 1], db, j);
    }
  }

  /** The first descriptor of `s` on map `mapId`, if any. */
  function FirstOnMap(s: seq<LinkInfo>, mapId: nat): (r: Option<LinkInfo>)
    ensures r.Some? ==> exists i :: 0 <= i < |s| && s[i] == r.value && r.value.mapId == mapId
                          && forall j :: 0 <= j < i ==> s[j].mapId != mapId
    ensures r.None? ==> forall i :: 0 <= i < |s| ==> s[i].mapId != mapId
  {
    if s == [] then None
    else if s[0].mapId == mapId then Some(s[0])
    else
      var r := FirstOnMap(s[1..], mapId);
      assert r.Some? ==> exists i :: 1 <= i < |s| && s[i] == r.value && r.value.mapId == mapId
                           && forall j :: 0 <= j < i ==> s[j].mapId != mapId by {
        if r.Some? {
          var i :| 0 <= i < |s[1..]| && s[1..][i] == r.value && r.value.mapId == mapId
                   && forall j :: 0 <= j < i ==> s[1..][j].mapId != mapId;
          assert s[i + 1] == r.value;
          forall j | 0 <= j < i + 1 ensures s[j].mapId != mapId {
            if j > 0 { assert s[j] == s[1..][j - 1]; }
          }
        }
      }
      r
  }

  /**
   * `GetLinkedTriggerInformation(entry, dbGuid, mapId)`: a guid-scoped
   * descriptor of the spawn wins; otherwise the first template descriptor of
   * the entry that names the creature's map; otherwise none.
   */
  function Lookup(reg: Registry, entry: nat, dbGuid: nat, mapId: nat): (r: Option<LinkInfo>)
    ensures Links(reg.guidLinks, dbGuid) != [] ==> r == Some(Links(reg.guidLinks, dbGuid)[0])
    ensures Links(reg.guidLinks, dbGuid) == [] && r.Some? ==>
              r.value in Links(reg.entryLinks, entry) && r.value.mapId == mapId
    ensures Links(reg.guidLinks, dbGuid) == [] && r.None? ==>
              forall info :: info in Links(reg.entryLinks, entry) ==> info.mapId != mapId
  {
    var byGuid := Links(reg.guidLinks, dbGuid);
    if |byGuid| > 0 then Some(byGuid[0])
    else FirstOnMap(Links(reg.entryLinks, entry), mapId)
  }

  function LookupCreature(reg: Registry, c: Creature): Option<LinkInfo> {
    Lookup(reg, c.entry, c.dbGuid, c.mapId)
  }

  /**
   * In a well-formed registry the sentinel map id tells the two domains apart:
   * a descriptor found for a creature on a real map carries the sentinel
   * exactly when it came from the guid table.
   */
  lemma LookupDomain(reg: Registry, entry: nat, dbGuid: nat, mapId: nat)
    requires WellFormed(reg)
    requires mapId != InvalidMapId
    requires Lookup(reg, entry, dbGuid, mapId).Some?
    ensures var info := Lookup(reg, entry, dbGuid, mapId).value;
            (info.mapId == InvalidMapId <==> Links(reg.guidLinks, dbGuid) != [])
            && IsValidFlag(info.flag)
            && (info.mapId == InvalidMapId ==> info.searchRange == 0 && info.masterDbGuid == info.masterId)
  {
    var info := Lookup(reg, entry, dbGuid, mapId).value;
    if Links(reg.guidLinks, dbGuid) != [] {
      assert info in reg.guidLinks[dbGuid];
    } else {
      assert info in reg.entryLinks[entry];
    }
  }

  /** `IsLinkedMaster`: the creature's entry is the master of some template link. */
  function IsLinkedMaster(reg: Registry, c: Creature): (r: bool)
    ensures MasterSetMatches(reg.entryLinks, reg.eventTriggers) ==>
              (r <==> exists k :: k in reg.entryLinks && NamesMaster(reg.entryLinks[k], c.entry))
  {
    c.entry in reg.eventTriggers
  }

  /**
   * `IsLinkedEventTrigger`: the creature may start a linking event when it is
   * a master by entry or by guid, or its own link acts on its master.
   */
  function IsLinkedEventTrigger(reg: Registry, c: Creature): (r: bool)
    ensures IsLinkedMaster(reg, c) ==> r
    ensures TriggersConsistent(reg) && (exists k :: k in reg.guidLinks && NamesMaster(reg.guidLinks[k], c.dbGuid)) ==> r
    ensures !r ==> LookupCreature(reg, c).None? || !Has(LookupCreature(reg, c).value.flag, TriggerToMask)
    ensures r ==> || c.entry in reg.eventTriggers || c.dbGuid in reg.eventGuidTriggers
                  || (LookupCreature(reg, c).Some? && Has(LookupCreature(reg, c).value.flag, TriggerToMask))
  {
    if c.entry in reg.eventTriggers then true
    else if c.dbGuid in reg.eventGuidTriggers then true
    else match LookupCreature(reg, c)
      case Some(info) => info.flag & TriggerToMask != 0
      case None => false
  }

  /**
   * `IsSpawnedByLinkedMob`: the link gates spawning on its master and has a
   * way to find that master (a resolved guid, or a search range).
   */
  function IsSpawnedByLinkedMob(info: LinkInfo): (r: bool)
    ensures r ==> Has(info.flag, CantSpawnIfBossDead) || Has(info.flag, CantSpawnIfBossAlive)
    ensures !Has(info.flag, SpawnGateFlags) ==> !r
    ensures Has(info.flag, SpawnGateFlags) && info.searchRange > 0 ==> r
    ensures info.searchRange == 0 ==> (r <==> Has(info.flag, SpawnGateFlags) && info.masterDbGuid != 0)
  {
    Has(info.flag, SpawnGateFlags) && (info.masterDbGuid != 0 || info.searchRange != 0)
  }

  /**
   * A loaded map-wide template link that follows or gates spawning is
   * spawn-gated as soon as it gates: its resolved master is the one spawn of
   * the master entry on its map.
   */
  lemma LoadedGateResolvesMaster(rows: seq<TemplateRow>, db: WorldDb, k: nat, i: nat)
    requires i < |AcceptedTemplates(rows, db, k)|
    requires AcceptedTemplates(rows, db, k)[i].searchRange == 0
    requires Has(AcceptedTemplates(rows, db, k)[i].flag, SpawnGateFlags)
    ensures var info := AcceptedTemplates(rows, db, k)[i];
            MasterSpawns(db, info.masterId, info.mapId) == {info.masterDbGuid}
            && (info.masterDbGuid != 0 ==> IsSpawnedByLinkedMob(info))
  {
    var info := AcceptedTemplates(rows, db, k)[i];
    assert Has(info.flag, UniqueMasterFlags);
  }
}

=== FILE: LinkingEvents.dfy ===
/**
 * Event propagation (`DoCreatureLinkingEvent`, `ProcessSlaveGuidList`,
 * `ProcessSlave`).
 *
 * The effects the C++ code applies to creatures (despawn, respawn, kill,
 * evade, combat, follow, spawn-manager respawn) are emitted as `Command`s in
 * the order the code issues them. They are requests to the host: every check
 * in one propagation reads the map as it was when the event was raised.
 */
module LinkingEvents {
  import opened Wrappers
  import opened LinkingFlags
  import opened World
  import opened LinkRegistry
  import opened LinkingHolder

  datatype Command =
    | AttackStart(attacker: ObjGuid, victim: ObjGuid)   // AI()->AttackStart
    | JoinCombat(ally: ObjGuid, victim: ObjGuid)        // threat both ways, SetInCombatWith, TriggerCombatTimer
    | ForcedDespawn(target: ObjGuid)
    | Respawn(target: ObjGuid)
    | Suicide(target: ObjGuid)
    | EnterEvadeMode(target: ObjGuid)
    | MoveFollow(follower: ObjGuid, leader: ObjGuid)     // SetFollowing
    | SpawnManagerRespawn(dbGuid: nat)

  /** The creature a command acts on; spawn-manager requests act on a database guid instead. */
  function Actor(c: Command): Option<ObjGuid> {
    match c
    case AttackStart(a, _) => Some(a)
    case JoinCombat(a, _) => Some(a)
    case ForcedDespawn(t) => Some(t)
    case Respawn(t) => Some(t)
    case Suicide(t) => Some(t)
    case EnterEvadeMode(t) => Some(t)
    case MoveFollow(f, _) => Some(f)
    case SpawnManagerRespawn(_) => None
  }

  /** Combat entry of a linked creature: join the fight if already fighting, else start attacking. */
  function EnterCombat(who: Creature, enemy: ObjGuid): Command {
    if who.inCombat then JoinCombat(who.guid, enemy) else AttackStart(who.guid, enemy)
  }

  function WhenThen(cond: bool, c: Command): seq<Command> {
    if cond then [c] else []
  }

  /**
   * What every action list a slave receives satisfies: each command acts on
   * the slave and respects its state (a live slave is not respawned, only a
   * live slave is killed or sent to evade, a despawned one is not despawned
   * again, only a live slave out of combat follows, and only the aggro event
   * draws a creature that is not player-controlled into combat).
   */
  ghost predicate RespectsSlave(ev: LinkingEvent, source: Creature, slave: Creature, enemy: Option<ObjGuid>, r: seq<Command>) {
    && (forall c :: c in r ==> Actor(c) == Some(slave.guid))
    && (forall c :: c in r && c.Respawn? ==> !slave.IsAlive())
    && (forall c :: c in r && (c.Suicide? || c.EnterEvadeMode?) ==> slave.IsAlive())
    && (forall c :: c in r && c.ForcedDespawn? ==> !slave.IsDespawned())
    && (forall c :: c in r && c.MoveFollow? ==> c.leader == source.guid && slave.IsAlive() && !slave.inCombat)
    && (forall c :: c in r && (c.AttackStart? || c.JoinCombat?) ==>
          ev == OnAggro && !slave.playerControlled && Some(c.victim) == enemy && (c.JoinCombat? <==> slave.inCombat))
  }

  /** A flag with no bit of `mask` has none of the bits inside `mask`. */
  lemma MaskedOut(flag: Flags, mask: Flags, bit: Flags)
    requires flag & mask == 0 && bit & mask == bit
    ensures !Has(flag, bit)
  {
  }

  /** The aggro row of the action table: a slave with the bit that no player controls enters combat, no other does. */
  ghost predicate AggroTable(flag: Flags, slave: Creature, enemy: ObjGuid, r: seq<Command>) {
    && (Has(flag, AggroOnAggro) && !slave.playerControlled ==> r == [EnterCombat(slave, enemy)])
    && (!Has(flag, AggroOnAggro) || slave.playerControlled ==> r == [])
  }

  /** No command is issued twice. */
  predicate NoRepeats(r: seq<Command>) {
    forall i, j :: 0 <= i < j < |r| ==> r[i] != r[j]
  }

  /** The evade row: despawn and evade for a live slave, respawn for a dead one, each under its own bit, once, and nothing else. */
  ghost predicate EvadeTable(flag: Flags, slave: Creature, r: seq<Command>) {
    && (ForcedDespawn(slave.guid) in r <==> Has(flag, DespawnOnEvade) && slave.IsAlive())
    && (Respawn(slave.guid) in r <==> Has(flag, RespawnOnEvade) && !slave.IsAlive())
    && (EnterEvadeMode(slave.guid) in r <==> Has(flag, EvadeOnEvade) && slave.IsAlive())
    && (forall c :: c in r ==> c.ForcedDespawn? || c.Respawn? || c.EnterEvadeMode?)
    && NoRepeats(r)
  }

  /** The death row: kill and despawn for a live slave, respawn for a dead one, each under its own bit, once, and nothing else. */
  ghost predicate DieTable(flag: Flags, slave: Creature, r: seq<Command>) {
    && (Suicide(slave.guid) in r <==> Has(flag, SelfkillOnDeath) && slave.IsAlive())
    && (ForcedDespawn(slave.guid) in r <==> Has(flag, DespawnOnDeath) && slave.IsAlive())
    && (Respawn(slave.guid) in r <==> Has(flag, RespawnOnDeath) && !slave.IsAlive())
    && (forall c :: c in r ==> c.Suicide? || c.ForcedDespawn? || c.Respawn?)
    && NoRepeats(r)
  }

  /** The despawn row: a slave with the bit that is not despawned yet is despawned once, and nothing else happens. */
  ghost predicate DespawnTable(flag: Flags, slave: Creature, r: seq<Command>) {
    && (ForcedDespawn(slave.guid) in r <==> Has(flag, DespawnOnDespawn) && !slave.IsDespawned())
    && (forall c :: c in r ==> c.ForcedDespawn?)
    && NoRepeats(r)
  }

  /**
   * The respawn row: respawn for a dead slave outside the storm guard under
   * respawn-on-respawn; otherwise despawn for a live slave under
   * despawn-on-respawn; follow for a live slave out of combat; each once, and
   * nothing else.
   */
  ghost predicate RespawnTable(source: Creature, flag: Flags, slave: Creature, now: int, r: seq<Command>) {
    && (Respawn(slave.guid) in r <==>
          Has(flag, RespawnOnRespawn) && !slave.IsAlive() && !RespawnsOnItsOwn(slave, now))
    && (ForcedDespawn(slave.guid) in r <==>
          !Has(flag, RespawnOnRespawn) && Has(flag, DespawnOnRespawn) && slave.IsAlive())
    && (MoveFollow(slave.guid, source.guid) in r <==>
          Has(flag, Follow) && slave.IsAlive() && !slave.inCombat)
    && (forall c :: c in r ==> c.Respawn? || c.ForcedDespawn? || c.MoveFollow?)
    && NoRepeats(r)
  }

  function SlaveOnAggro(source: Creature, flag: Flags, slave: Creature, enemy: ObjGuid): (r: seq<Command>)
    ensures RespectsSlave(OnAggro, source, slave, Some(enemy), r)
    ensures AggroTable(flag, slave, enemy, r)
    ensures flag & EventMask(OnAggro) == 0 ==> r == []
  {
    if !Has(flag, AggroOnAggro) || slave.playerControlled then []
    else [EnterCombat(slave, enemy)]
  }

  function SlaveOnEvade(source: Creature, flag: Flags, slave: Creature): (r: seq<Command>)
    ensures RespectsSlave(OnEvade, source, slave, None, r)
    ensures EvadeTable(flag, slave, r)
    ensures flag & EventMask(OnEvade) == 0 ==> r == []
  {
    var s := slave.guid;
    if flag & EventMask(OnEvade) == 0 then
      MaskedOut(flag, EventMask(OnEvade), DespawnOnEvade);
      MaskedOut(flag, EventMask(OnEvade), RespawnOnEvade);
      MaskedOut(flag, EventMask(OnEvade), EvadeOnEvade);
      []
    else
      WhenThen(Has(flag, DespawnOnEvade) && slave.IsAlive(), ForcedDespawn(s))
      + WhenThen(Has(flag, RespawnOnEvade) && !slave.IsAlive(), Respawn(s))
      + WhenThen(Has(flag, EvadeOnEvade) && slave.IsAlive(), EnterEvadeMode(s))
  }

  function SlaveOnDie(source: Creature, flag: Flags, slave: Creature): (r: seq<Command>)
    ensures RespectsSlave(OnDie, source, slave, None, r)
    ensures DieTable(flag, slave, r)
    ensures flag & EventMask(OnDie) == 0 ==> r == []
  {
    var s := slave.guid;
    if flag & EventMask(OnDie) == 0 then
      MaskedOut(flag, EventMask(OnDie), SelfkillOnDeath);
      MaskedOut(flag, EventMask(OnDie), DespawnOnDeath);
      MaskedOut(flag, EventMask(OnDie), RespawnOnDeath);
      []
    else
      WhenThen(Has(flag, SelfkillOnDeath) && slave.IsAlive(), Suicide(s))
      + WhenThen(Has(flag, DespawnOnDeath) && slave.IsAlive(), ForcedDespawn(s))
      + WhenThen(Has(flag, RespawnOnDeath) && !slave.IsAlive(), Respawn(s))
  }

  /** A dead slave whose own respawn delay is running out is left to it (the respawn-storm guard). */
  predicate RespawnsOnItsOwn(slave: Creature, now: int) {
    slave.respawnDelay != 0 && slave.respawnTime <= now
  }

  function SlaveOnRespawn(source: Creature, flag: Flags, slave: Creature, now: int): (r: seq<Command>)
    ensures RespectsSlave(OnRespawn, source, slave, None, r)
    ensures RespawnTable(source, flag, slave, now, r)
    ensures flag & EventMask(OnRespawn) == 0 ==> r == []
    ensures Has(flag, RespawnOnRespawn) ==> ForcedDespawn(slave.guid) !in r
    ensures RespawnsOnItsOwn(slave, now) ==> Respawn(slave.guid) !in r
  {
    var s := slave.guid;
    if flag & EventMask(OnRespawn) == 0 then
      MaskedOut(flag, EventMask(OnRespawn), RespawnOnRespawn);
      MaskedOut(flag, EventMask(OnRespawn), DespawnOnRespawn);
      MaskedOut(flag, EventMask(OnRespawn), Follow);
      []
    else
      (if Has(flag, RespawnOnRespawn) then
         WhenThen(!slave.IsAlive() && !RespawnsOnItsOwn(slave, now), Respawn(s))
       else WhenThen(Has(flag, DespawnOnRespawn) && slave.IsAlive(), ForcedDespawn(s)))
      + WhenThen(Has(flag, Follow) && slave.IsAlive() && !slave.inCombat, MoveFollow(s, source.guid))
  }

  function SlaveOnDespawn(source: Creature, flag: Flags, slave: Creature): (r: seq<Command>)
    ensures RespectsSlave(OnDespawn, source, slave, None, r)
    ensures DespawnTable(flag, slave, r)
    ensures flag & EventMask(OnDespawn) == 0 ==> r == []
  {
    WhenThen(Has(flag, DespawnOnDespawn) && !slave.IsDespawned(), ForcedDespawn(slave.guid))
  }

  /**
   * `ProcessSlave`: the actions one slave receives for one event. They
   * respect the slave's state, only flags of the event's mask act, a set respawn-on-respawn flag
   * suppresses despawn-on-respawn, and the respawn-storm guard holds.
   */
  function ProcessSlave(ev: LinkingEvent, source: Creature, flag: Flags, slave: Creature, enemy: Option<ObjGuid>, now: int): (r: seq<Command>)
    requires ev == OnAggro ==> enemy.Some?
    ensures RespectsSlave(ev, source, slave, enemy, r)
    ensures flag & EventMask(ev) == 0 ==> r == []
    ensures ev == OnRespawn && Has(flag, RespawnOnRespawn) ==> ForcedDespawn(slave.guid) !in r
    ensures ev == OnRespawn && RespawnsOnItsOwn(slave, now) ==> Respawn(slave.guid) !in r
  {
    var mask := EventMask(ev);
    match ev
    case OnAggro => assert mask == EventMask(OnAggro); SlaveOnAggro(source, flag, slave, enemy.value)
    case OnEvade => assert mask == EventMask(OnEvade); SlaveOnEvade(source, flag, slave)
    case OnDie => assert mask == EventMask(OnDie); SlaveOnDie(source, flag, slave)
    case OnRespawn => assert mask == EventMask(OnRespawn); SlaveOnRespawn(source, flag, slave, now)
    case OnDespawn => assert mask == EventMask(OnDespawn); SlaveOnDespawn(source, flag, slave)
  }

  /** The aggro, evade, death and despawn rows of the action table hold of `ProcessSlave`. */
  lemma ProcessSlaveFollowsTable(ev: LinkingEvent, source: Creature, flag: Flags, slave: Creature, enemy: Option<ObjGuid>, now: int)
    requires ev == OnAggro ==> enemy.Some?
    ensures var r := ProcessSlave(ev, source, flag, slave, enemy, now);
            && (ev == OnAggro ==> AggroTable(flag, slave, enemy.value, r))
            && (ev == OnEvade ==> EvadeTable(flag, slave, r))
            && (ev == OnDie ==> DieTable(flag, slave, r))
            && (ev == OnDespawn ==> DespawnTable(flag, slave, r))
  {
  }

  /** The respawn row of the action table holds of `ProcessSlave`. */
  lemma RespawnEventActions(source: Creature, flag: Flags, slave: Creature, now: int)
    ensures RespawnTable(source, flag, slave, now, ProcessSlave(OnRespawn, source, flag, slave, None, now))
  {
  }

  /** A bit inside `mask` survives masking. */
  lemma KeptByMask(flag: Flags, mask: Flags, bit: Flags)
    requires bit & mask == bit
    ensures Has(flag & mask, bit) == Has(flag, bit)
  {
  }

  /** Only the bits of the event's mask matter to a slave's actions. */
  lemma ProcessSlaveMasked(ev: LinkingEvent, source: Creature, flag: Flags, slave: Creature, enemy: Option<ObjGuid>, now: int)
    requires ev == OnAggro ==> enemy.Some?
    ensures ProcessSlave(ev, source, flag, slave, enemy, now)
            == ProcessSlave(ev, source, flag & EventMask(ev), slave, enemy, now)
  {
    var mask := EventMask(ev);
    var m := flag & mask;
    assert m & mask == m;
    match ev
    case OnAggro =>
      KeptByMask(flag, mask, AggroOnAggro);
    case OnEvade =>
      KeptByMask(flag, mask, DespawnOnEvade);
      KeptByMask(flag, mask, RespawnOnEvade);
      KeptByMask(flag, mask, EvadeOnEvade);
    case OnDie =>
      KeptByMask(flag, mask, SelfkillOnDeath);
      KeptByMask(flag, mask, DespawnOnDeath);
      KeptByMask(flag, mask, RespawnOnDeath);
    case OnRespawn =>
      KeptByMask(flag, mask, RespawnOnRespawn);
      KeptByMask(flag, mask, DespawnOnRespawn);
      KeptByMask(flag, mask, Follow);
    case OnDespawn =>
      KeptByMask(flag, mask, DespawnOnDespawn);
  }

  /** A holder entry resolves through its database guid when it has one, else through its object guid. */
  function ResolveSlave(w: MapState, ref: SlaveRef): Option<Creature> {
    if ref.dbGuid != 0 then GetCreatureByDbGuid(w, ref.dbGuid) else GetCreature(w, ref.guid)
  }

  predicate Resolves(w: MapState, ref: SlaveRef) {
    ResolveSlave(w, ref).Some?
  }

  /** A slave that receives actions: it resolves, is no pet, and its home is in range of the source's. */
  predicate Eligible(w: MapState, source: Creature, range: U16, ref: SlaveRef) {
    match ResolveSlave(w, ref)
    case None => false
    case Some(s) => !s.isPet && InRange(range, s.home.x, s.home.y, source.home)
  }

  /** `a` keeps some elements of `b` in their relative order. */
  predicate IsSubsequence(a: seq<SlaveRef>, b: seq<SlaveRef>)
    decreases |b|
  {
    |a| <= |b|
    && (a == [] || (b != [] && ((a[0] == b[0] && IsSubsequence(a[1..], b[1..])) || IsSubsequence(a, b[1..]))))
  }

  /** `after` is `before` with exactly the entries that no longer resolve removed, order kept. */
  ghost predicate PrunedExactly(w: MapState, before: seq<SlaveRef>, after: seq<SlaveRef>) {
    && IsSubsequence(after, before)
    && forall x :: multiset(after)[x] == if Resolves(w, x) then multiset(before)[x] else 0
  }

  /** The entries of a slave list that still resolve, in order. */
  function Surviving(w: MapState, slaves: seq<SlaveRef>): seq<SlaveRef>
    decreases |slaves|
  {
    if slaves == [] then []
    else (if Resolves(w, slaves[0]) then [slaves[0]] else []) + Surviving(w, slaves[1..])
  }

  /** Keeping the surviving entries is exactly pruning the vanished ones. */
  lemma {:induction false} SurvivingPrunesExactly(w: MapState, slaves: seq<SlaveRef>)
    ensures PrunedExactly(w, slaves, Surviving(w, slaves))
    decreases |slaves|
  {
    if slaves != [] {
      var ref, tail := slaves[0], slaves[1..];
      var rest := Surviving(w, tail);
      SurvivingPrunesExactly(w, tail);
      assert slaves == [ref] + tail;
      assert multiset(slaves) == multiset{ref} + multiset(tail);
      if Resolves(w, ref) {
        var r := [ref] + rest;
        assert r[0] == slaves[0] && r[1..] == rest;
        assert IsSubsequence(r, slaves);
        assert multiset(r) == multiset{ref} + multiset(rest);
      } else {
        assert Surviving(w, slaves) == rest;
        assert IsSubsequence(rest, slaves);
      }
    }
  }

  datatype ListOutcome = ListOutcome(kept: seq<SlaveRef>, commands: seq<Command>)

  /**
   * A command the walk over `slaves` with flags split into `pre` and `post`
   * may issue: one that acts on a creature is among the actions
   * `ProcessSlave` gives an eligible slave of the list under `post`; a
   * spawn-manager request names an entry of the list that has vanished or
   * is a corpse, and only when some respawn action was preprocessed.
   */
  ghost predicate FromList(w: MapState, ev: LinkingEvent, source: Creature, pre: Flags, post: Flags, range: U16,
                           slaves: seq<SlaveRef>, enemy: Option<ObjGuid>, now: int, c: Command)
    requires ev == OnAggro ==> enemy.Some?
  {
    && (Actor(c).Some? ==>
          exists ref :: ref in slaves && Eligible(w, source, range, ref)
                        && c in ProcessSlave(ev, source, post, ResolveSlave(w, ref).value, enemy, now))
    && (c.SpawnManagerRespawn? ==>
          exists ref :: ref in slaves && ref.dbGuid == c.dbGuid && pre != 0
                        && (ResolveSlave(w, ref).None? || ResolveSlave(w, ref).value.IsCorpse()))
  }

  ghost predicate ActsOnEligible(w: MapState, ev: LinkingEvent, source: Creature, pre: Flags, post: Flags, range: U16,
                                 slaves: seq<SlaveRef>, enemy: Option<ObjGuid>, now: int, cmds: seq<Command>)
    requires ev == OnAggro ==> enemy.Some?
  {
    forall c :: c in cmds ==> FromList(w, ev, source, pre, post, range, slaves, enemy, now, c)
  }

  /** The spawn-manager request for a vanished or dead slave when respawns are preprocessed. */
  function RespawnRequest(w: MapState, pre: Flags, ref: SlaveRef): (r: seq<Command>)
    ensures forall c :: c in r ==> c == SpawnManagerRespawn(ref.dbGuid) && pre != 0
    ensures r != [] <==> pre != 0 && (ResolveSlave(w, ref).None? || ResolveSlave(w, ref).value.IsCorpse())
  {
    var slave := ResolveSlave(w, ref);
    WhenThen((slave.None? || slave.value.IsCorpse()) && pre != 0, SpawnManagerRespawn(ref.dbGuid))
  }

  /** The actions a holder entry receives: none unless it resolves to a slave that is no pet and is in range. */
  function EntryActions(w: MapState, ev: LinkingEvent, source: Creature, post: Flags, range: U16,
                        ref: SlaveRef, enemy: Option<ObjGuid>, now: int): (r: seq<Command>)
    requires ev == OnAggro ==> enemy.Some?
    ensures r != [] ==> Eligible(w, source, range, ref)
    ensures Eligible(w, source, range, ref) ==> r == ProcessSlave(ev, source, post, ResolveSlave(w, ref).value, enemy, now)
    ensures forall c :: c in r ==> Actor(c) == Some(ResolveSlave(w, ref).value.guid) && !c.SpawnManagerRespawn?
  {
    match ResolveSlave(w, ref)
    case None => []
    case Some(slave) =>
      if slave.isPet || !InRange(range, slave.home.x, slave.home.y, source.home) then []
      else
        assert Eligible(w, source, range, ref);
        var acts := ProcessSlave(ev, source, post, slave, enemy, now);
        assert RespectsSlave(ev, source, slave, enemy, acts);
        acts
  }

  /** The loop of `ProcessSlaveGuidList` over the remaining entries. */
  function WalkSlaves(w: MapState, ev: LinkingEvent, source: Creature, pre: Flags, post: Flags, range: U16,
                      slaves: seq<SlaveRef>, enemy: Option<ObjGuid>, now: int): (r: ListOutcome)
    requires ev == OnAggro ==> enemy.Some?
    ensures r.kept == Surviving(w, slaves)
    ensures pre == 0 ==> forall c :: c in r.commands ==> !c.SpawnManagerRespawn?
    decreases |slaves|
  {
    if slaves == [] then ListOutcome([], [])
    else
      var rest := WalkSlaves(w, ev, source, pre, post, range, slaves[1..], enemy, now);
      ListOutcome((if Resolves(w, slaves[0]) then [slaves[0]] else []) + rest.kept,
                  RespawnRequest(w, pre, slaves[0])
                  + EntryActions(w, ev, source, post, range, slaves[0], enemy, now)
                  + rest.commands)
  }

  /** Only eligible slaves of the list receive actions. */
  lemma {:induction false} WalkSlavesActsOnEligible(w: MapState, ev: LinkingEvent, source: Creature, pre: Flags, post: Flags,
                                                    range: U16, slaves: seq<SlaveRef>, enemy: Option<ObjGuid>, now: int)
    requires ev == OnAggro ==> enemy.Some?
    ensures ActsOnEligible(w, ev, source, pre, post, range, slaves, enemy, now,
                           WalkSlaves(w, ev, source, pre, post, range, slaves, enemy, now).commands)
    decreases |slaves|
  {
    if slaves != [] {
      var ref := slaves[0];
      var req := RespawnRequest(w, pre, ref);
      var acts := EntryActions(w, ev, source, post, range, ref, enemy, now);
      var rest := WalkSlaves(w, ev, source, pre, post, range, slaves[1..], enemy, now).commands;
      WalkSlavesActsOnEligible(w, ev, source, pre, post, range, slaves[1..], enemy, now);
      assert WalkSlaves(w, ev, source, pre, post, range, slaves, enemy, now).commands == req + acts + rest;
      assert ref in slaves;
      forall c | c in req + acts + rest
        ensures FromList(w, ev, source, pre, post, range, slaves, enemy, now, c)
      {
        if c in req {
        } else if c in acts {
        } else {
          assert FromList(w, ev, source, pre, post, range, slaves[1..], enemy, now, c);
          assert forall y :: y in slaves[1..] ==> y in slaves;
        }
      }
    }
  }

  /**
   * Every eligible slave of the list receives all of its actions, and with
   * respawns preprocessed every vanished or dead slave is handed to the
   * spawn manager.
   */
  lemma {:induction false} WalkSlavesReachesEligible(w: MapState, ev: LinkingEvent, source: Creature, pre: Flags, post: Flags,
                                                     range: U16, slaves: seq<SlaveRef>, enemy: Option<ObjGuid>, now: int,
                                                     ref: SlaveRef)
    requires ev == OnAggro ==> enemy.Some?
    requires ref in slaves
    ensures var r := WalkSlaves(w, ev, source, pre, post, range, slaves, enemy, now).commands;
            && (Eligible(w, source, range, ref) ==>
                  forall c :: c in ProcessSlave(ev, source, post, ResolveSlave(w, ref).value, enemy, now) ==> c in r)
            && (pre != 0 && (ResolveSlave(w, ref).None? || ResolveSlave(w, ref).value.IsCorpse()) ==>
                  SpawnManagerRespawn(ref.dbGuid) in r)
    decreases |slaves|
  {
    if slaves[0] != ref {
      WalkSlavesReachesEligible(w, ev, source, pre, post, range, slaves[1..], enemy, now, ref);
    } else if pre != 0 && (ResolveSlave(w, ref).None? || ResolveSlave(w, ref).value.IsCorpse()) {
      assert RespawnRequest(w, pre, ref) == [SpawnManagerRespawn(ref.dbGuid)];
    }
  }

  /**
   * With the newer spawning system the respawn actions are taken out of the
   * flags and handed to the spawn manager before the slave walk; otherwise
   * nothing is.
   */
  function PreprocessFlag(source: Creature, flag: Flags): (pre: Flags)
    ensures pre & !RespawnActions == 0
    ensures !source.newSpawning || flag & RespawnActions == 0 ==> pre == 0
  {
    if source.newSpawning then flag & RespawnActions else 0
  }

  /** The flags the slave walk still acts on: all of them, less the respawn actions under the newer system. */
  function PostprocessFlag(source: Creature, flag: Flags): (post: Flags)
    ensures post | PreprocessFlag(source, flag) == flag
    ensures source.newSpawning ==> post & RespawnActions == 0
  {
    if source.newSpawning then flag & !RespawnActions else flag
  }

  /**
   * `ProcessSlaveGuidList`: nothing happens when the group's flags share no
   * bit with the event; otherwise exactly the entries that still resolve are
   * kept. The spawn manager is asked for respawns only with the newer
   * spawning system and a respawn action among the flags.
   */
  function ProcessSlaveGuidList(w: MapState, ev: LinkingEvent, source: Creature, flag: Flags, range: U16,
                                slaves: seq<SlaveRef>, enemy: Option<ObjGuid>, now: int): (r: ListOutcome)
    requires ev == OnAggro ==> enemy.Some?
    ensures flag == 0 ==> r == ListOutcome(slaves, [])
    ensures flag != 0 ==> r.kept == Surviving(w, slaves)
    ensures !source.newSpawning || flag & RespawnActions == 0 ==>
              forall c :: c in r.commands ==> !c.SpawnManagerRespawn?
  {
    if flag == 0 then ListOutcome(slaves, [])
    else WalkSlaves(w, ev, source, PreprocessFlag(source, flag), PostprocessFlag(source, flag), range, slaves, enemy, now)
  }

  /**
   * The list walk prunes exactly the vanished entries, and only eligible
   * slaves (resolving, no pet, in range) receive actions.
   */
  lemma ProcessSlaveGuidListSound(w: MapState, ev: LinkingEvent, source: Creature, flag: Flags, range: U16,
                                  slaves: seq<SlaveRef>, enemy: Option<ObjGuid>, now: int)
    requires ev == OnAggro ==> enemy.Some?
    ensures var r := ProcessSlaveGuidList(w, ev, source, flag, range, slaves, enemy, now);
            && (flag != 0 ==> PrunedExactly(w, slaves, r.kept))
            && (flag != 0 ==> ActsOnEligible(w, ev, source, PreprocessFlag(source, flag), PostprocessFlag(source, flag),
                                             range, slaves, enemy, now, r.commands))
  {
    SurvivingPrunesExactly(w, slaves);
    if flag != 0 {
      WalkSlavesActsOnEligible(w, ev, source, PreprocessFlag(source, flag), PostprocessFlag(source, flag),
                               range, slaves, enemy, now);
    }
  }

  /**
   * The converse of `ProcessSlaveGuidListSound`: an eligible slave of a
   * list with flags receives every action `ProcessSlave` gives it under the
   * flags left after preprocessing, and with the newer spawning system and a
   * respawn action among the flags a vanished or dead slave is handed to the
   * spawn manager.
   */
  lemma ProcessSlaveGuidListComplete(w: MapState, ev: LinkingEvent, source: Creature, flag: Flags, range: U16,
                                     slaves: seq<SlaveRef>, enemy: Option<ObjGuid>, now: int, ref: SlaveRef)
    requires ev == OnAggro ==> enemy.Some?
    requires flag != 0 && ref in slaves
    ensures var r := ProcessSlaveGuidList(w, ev, source, flag, range, slaves, enemy, now).commands;
            && (Eligible(w, source, range, ref) ==>
                  forall c :: c in ProcessSlave(ev, source, PostprocessFlag(source, flag), ResolveSlave(w, ref).value, enemy, now) ==> c in r)
            && (source.newSpawning && flag & RespawnActions != 0
                && (ResolveSlave(w, ref).None? || ResolveSlave(w, ref).value.IsCorpse()) ==>
                  SpawnManagerRespawn(ref.dbGuid) in r)
  {
    WalkSlavesReachesEligible(w, ev, source, PreprocessFlag(source, flag), PostprocessFlag(source, flag),
                              range, slaves, enemy, now, ref);
  }

  /**
   * What one event does to the groups under one master key: the same groups
   * with the same keys and guard state; a group already in use, or whose
   * flags share no bit with the event, is untouched; every other group keeps
   * just its surviving entries.
   */
  ghost predicate Swept(w: MapState, ev: LinkingEvent, before: seq<Group>, after: seq<Group>) {
    && |after| == |before|
    && forall i :: 0 <= i < |before| ==> SweptOne(w, ev, before[i], after[i])
  }

  /** One group's step of `Swept`. */
  ghost predicate SweptOne(w: MapState, ev: LinkingEvent, before: Group, after: Group) {
    && after.flag == before.flag
    && after.searchRange == before.searchRange
    && after.inUse == before.inUse
    && (before.inUse || before.flag & EventMask(ev) == 0 ==> after == before)
    && (!before.inUse && before.flag & EventMask(ev) != 0 ==> after.slaves == Surviving(w, before.slaves))
  }

  lemma SweptCons(w: MapState, ev: LinkingEvent, g: Group, g': Group, before: seq<Group>, after: seq<Group>)
    requires SweptOne(w, ev, g, g')
    requires Swept(w, ev, before, after)
    ensures Swept(w, ev, [g] + before, [g'] + after)
  {
    forall i | 0 <= i < |[g] + before|
      ensures SweptOne(w, ev, ([g] + before)[i], ([g'] + after)[i])
    {
      if i > 0 {
        assert ([g] + before)[i] == before[i - 1];
        assert ([g'] + after)[i] == after[i - 1];
      }
    }
  }

  datatype GroupOutcome = GroupOutcome(group: Group, commands: seq<Command>)

  /**
   * A command the walk of group `g` may issue under event `ev`: the group is
   * not in use, its flags share a bit with the event, and the command is
   * one its list walk may issue under those flags.
   */
  ghost predicate FromGroup(w: MapState, ev: LinkingEvent, source: Creature, g: Group, enemy: Option<ObjGuid>, now: int,
                            c: Command)
    requires ev == OnAggro ==> enemy.Some?
  {
    var flag := g.flag & EventMask(ev);
    && !g.inUse && flag != 0
    && FromList(w, ev, source, PreprocessFlag(source, flag), PostprocessFlag(source, flag),
                g.searchRange, g.slaves, enemy, now, c)
  }

  /**
   * One group of a master key: a group whose guard is already set is
   * skipped; any other is guarded, processed with its flags masked by the
   * event, and released.
   */
  function ProcessGroup(w: MapState, ev: LinkingEvent, source: Creature, g: Group,
                        enemy: Option<ObjGuid>, now: int): (r: GroupOutcome)
    requires ev == OnAggro ==> enemy.Some?
    ensures SweptOne(w, ev, g, r.group)
    ensures g.inUse ==> r.commands == []
    ensures forall c :: c in r.commands ==> FromGroup(w, ev, source, g, enemy, now, c)
  {
    if g.inUse then GroupOutcome(g, [])
    else
      GroupWalkFromGroup(w, ev, source, g, enemy, now);
      var out := ProcessSlaveGuidList(w, ev, source, g.flag & EventMask(ev), g.searchRange, g.slaves, enemy, now);
      GroupOutcome(g.(slaves := out.kept, inUse := false), out.commands)
  }

  /** Every command of the list walk of a group not in use is one `FromGroup` admits. */
  lemma GroupWalkFromGroup(w: MapState, ev: LinkingEvent, source: Creature, g: Group, enemy: Option<ObjGuid>, now: int)
    requires ev == OnAggro ==> enemy.Some?
    requires !g.inUse
    ensures var walk := ProcessSlaveGuidList(w, ev, source, g.flag & EventMask(ev), g.searchRange, g.slaves, enemy, now);
            forall c :: c in walk.commands ==> FromGroup(w, ev, source, g, enemy, now, c)
  {
    var flag := g.flag & EventMask(ev);
    if flag != 0 {
      var pre, post := PreprocessFlag(source, flag), PostprocessFlag(source, flag);
      var walk := ProcessSlaveGuidList(w, ev, source, flag, g.searchRange, g.slaves, enemy, now);
      ProcessSlaveGuidListSound(w, ev, source, flag, g.searchRange, g.slaves, enemy, now);
      assert ActsOnEligible(w, ev, source, pre, post, g.searchRange, g.slaves, enemy, now, walk.commands);
      forall c | c in walk.commands
        ensures FromGroup(w, ev, source, g, enemy, now, c)
      {
        assert FromList(w, ev, source, pre, post, g.searchRange, g.slaves, enemy, now, c);
      }
    }
  }

  datatype GroupsOutcome = GroupsOutcome(groups: seq<Group>, commands: seq<Command>)

  /** The loop over the groups of one master key, in holder order. */
  function ProcessGroups(w: MapState, ev: LinkingEvent, source: Creature, gs: seq<Group>,
                         enemy: Option<ObjGuid>, now: int): (r: GroupsOutcome)
    requires ev == OnAggro ==> enemy.Some?
    ensures Swept(w, ev, gs, r.groups)
    ensures forall c :: c in r.commands ==>
              exists g :: g in gs && FromGroup(w, ev, source, g, enemy, now, c)
    decreases |gs|
  {
    if gs == [] then GroupsOutcome([], [])
    else
      var one := ProcessGroup(w, ev, source, gs[0], enemy, now);
      var rest := ProcessGroups(w, ev, source, gs[1..], enemy, now);
      SweptCons(w, ev, gs[0], one.group, gs[1..], rest.groups);
      FromGroupsCons(w, ev, source, gs, enemy, now, one.commands, rest.commands);
      GroupsOutcome([one.group] + rest.groups, one.commands + rest.commands)
  }

  /** The commands of the first group followed by those of the rest all come from some group of the key. */
  lemma FromGroupsCons(w: MapState, ev: LinkingEvent, source: Creature, gs: seq<Group>, enemy: Option<ObjGuid>, now: int,
                       first: seq<Command>, rest: seq<Command>)
    requires ev == OnAggro ==> enemy.Some?
    requires gs != []
    requires forall c :: c in first ==> FromGroup(w, ev, source, gs[0], enemy, now, c)
    requires forall c :: c in rest ==> exists g :: g in gs[1..] && FromGroup(w, ev, source, g, enemy, now, c)
    ensures forall c :: c in first + rest ==> exists g :: g in gs && FromGroup(w, ev, source, g, enemy, now, c)
  {
    forall c | c in first + rest
      ensures exists g :: g in gs && FromGroup(w, ev, source, g, enemy, now, c)
    {
      if c in first {
        assert gs[0] in gs;
      } else {
        var g :| g in gs[1..] && FromGroup(w, ev, source, g, enemy, now, c);
        assert g in gs;
      }
    }
  }

  /** Groups whose guards are all set issue nothing: a nested event leaves them alone. */
  lemma {:induction false} GuardedGroupsIssueNothing(w: MapState, ev: LinkingEvent, source: Creature, gs: seq<Group>,
                                                     enemy: Option<ObjGuid>, now: int)
    requires ev == OnAggro ==> enemy.Some?
    requires forall g :: g in gs ==> g.inUse
    ensures ProcessGroups(w, ev, source, gs, enemy, now).commands == []
    decreases |gs|
  {
    if gs != [] {
      assert gs[0] in gs;
      assert forall g :: g in gs[1..] ==> g in gs;
      GuardedGroupsIssueNothing(w, ev, source, gs[1..], enemy, now);
    }
  }

  /** A group that is not in use issues every command of its list walk. */
  lemma {:induction false} ProcessGroupsIssuesEveryGroup(w: MapState, ev: LinkingEvent, source: Creature, gs: seq<Group>,
                                                         enemy: Option<ObjGuid>, now: int, i: nat)
    requires ev == OnAggro ==> enemy.Some?
    requires i < |gs| && !gs[i].inUse
    ensures forall c :: c in ProcessSlaveGuidList(w, ev, source, gs[i].flag & EventMask(ev), gs[i].searchRange,
                                                  gs[i].slaves, enemy, now).commands
              ==> c in ProcessGroups(w, ev, source, gs, enemy, now).commands
    decreases |gs|
  {
    if i > 0 {
      ProcessGroupsIssuesEveryGroup(w, ev, source, gs[1..], enemy, now, i - 1);
      assert gs[1..][i - 1] == gs[i];
    }
  }

  /** Whether master object `g` resolves and lies in range of (sx, sy). */
  predicate MasterCandidate(w: MapState, g: ObjGuid, sx: real, sy: real, range: nat) {
    GetCreature(w, g).Some? && InRange(range, sx, sy, GetCreature(w, g).value.home)
  }

  /** The first registered master that resolves and is in range, as `DoCreatureLinkingEvent` and `CanSpawn` search. */
  function SelectMaster(w: MapState, guids: seq<ObjGuid>, sx: real, sy: real, range: nat): (r: Option<Creature>)
    ensures r.Some? ==> exists i :: 0 <= i < |guids| && GetCreature(w, guids[i]) == r
                          && MasterCandidate(w, guids[i], sx, sy, range)
                          && forall j :: 0 <= j < i ==> !MasterCandidate(w, guids[j], sx, sy, range)
    ensures r.None? ==> forall i :: 0 <= i < |guids| ==> !MasterCandidate(w, guids[i], sx, sy, range)
  {
    if guids == [] then None
    else if MasterCandidate(w, guids[0], sx, sy, range) then GetCreature(w, guids[0])
    else
      var r := SelectMaster(w, guids[1..], sx, sy, range);
      assert r.Some? ==> exists i :: 1 <= i < |guids| && GetCreature(w, guids[i]) == r
                           && MasterCandidate(w, guids[i], sx, sy, range)
                           && forall j :: 0 <= j < i ==> !MasterCandidate(w, guids[j], sx, sy, range) by {
        if r.Some? {
          var i :| 0 <= i < |guids[1..]| && GetCreature(w, guids[1..][i]) == r
                   && MasterCandidate(w, guids[1..][i], sx, sy, range)
                   && forall j :: 0 <= j < i ==> !MasterCandidate(w, guids[1..][j], sx, sy, range);
          assert guids[i + 1] == guids[1..][i];
          forall j | 0 <= j < i + 1 ensures !MasterCandidate(w, guids[j], sx, sy, range) {
            if j > 0 { assert guids[j] == guids[1..][j - 1]; }
          }
        }
      }
      r
  }

  /**
   * The master a slave-side event reaches: for a template link the first
   * registered master of its entry in range of the source's home, for a guid
   * link the creature spawned from the master guid.
   */
  function FindMaster(h: Holder, w: MapState, source: Creature, info: LinkInfo): (r: Option<Creature>)
    ensures var ms := Masters(h.masters, info.masterId);
            info.mapId != InvalidMapId ==>
              && (r.Some? <==> exists i :: 0 <= i < |ms| && MasterCandidate(w, ms[i], source.home.x, source.home.y, info.searchRange))
              && (r.Some? ==> InRange(info.searchRange, source.home.x, source.home.y, r.value.home))
    ensures info.mapId == InvalidMapId ==>
              (r.Some? <==> info.masterDbGuid in w.spawnedByDbGuid && w.spawnedByDbGuid[info.masterDbGuid] in w.creatures)
              && (r.Some? ==> r.value == w.creatures[w.spawnedByDbGuid[info.masterDbGuid]])
  {
    if info.mapId != InvalidMapId then
      SelectMaster(w, Masters(h.masters, info.masterId), source.home.x, source.home.y, info.searchRange)
    else GetCreatureByDbGuid(w, info.masterDbGuid)
  }

  /**
   * The master direction of `DoCreatureLinkingEvent`. At most one command;
   * none unless the source's own link carries the event's reverse flag. With
   * that flag: on evade with the newer spawning system a missing or dead
   * master is handed to the spawn manager; otherwise a found master that no
   * player controls enters combat on aggro, a found master that is not alive
   * is respawned on evade, and on respawn the source follows a live master.
   */
  function MasterActions(reg: Registry, h: Holder, w: MapState, ev: LinkingEvent, source: Creature,
                         enemy: Option<ObjGuid>): (r: seq<Command>)
    requires ev == OnAggro ==> enemy.Some?
    ensures |r| <= 1
    ensures LookupCreature(reg, source).None? || !Has(LookupCreature(reg, source).value.flag, ReverseEventMask(ev)) ==> r == []
    ensures ev == OnDie || ev == OnDespawn ==> r == []
    ensures forall c :: c in r && c.SpawnManagerRespawn? ==>
              ev == OnEvade && source.newSpawning && c.dbGuid == LookupCreature(reg, source).value.masterDbGuid
    ensures forall c :: c in r && !c.SpawnManagerRespawn? ==>
              var m := FindMaster(h, w, source, LookupCreature(reg, source).value);
              m.Some? && (if c.MoveFollow? then c == MoveFollow(source.guid, m.value.guid) && m.value.IsAlive()
                          else Actor(c) == Some(m.value.guid))
    ensures var link := LookupCreature(reg, source);
            link.Some? && Has(link.value.flag, ReverseEventMask(ev)) ==>
              var m := FindMaster(h, w, source, link.value);
              && (r == [SpawnManagerRespawn(link.value.masterDbGuid)] <==>
                    ev == OnEvade && source.newSpawning && (m.None? || m.value.IsCorpse()))
              && (ev == OnAggro && m.Some? && !m.value.playerControlled ==> r == [EnterCombat(m.value, enemy.value)])
              && (ev == OnEvade && m.Some? && !m.value.IsAlive() && !(source.newSpawning && m.value.IsCorpse()) ==>
                    r == [Respawn(m.value.guid)])
              && (ev == OnRespawn && m.Some? && m.value.IsAlive() ==> r == [MoveFollow(source.guid, m.value.guid)])
              && (ev == OnAggro && m.Some? && m.value.playerControlled ==> r == [])
              && (ev == OnEvade && m.Some? && m.value.IsAlive() ==> r == [])
              && (ev == OnRespawn && m.Some? && !m.value.IsAlive() ==> r == [])
              && (m.None? && !(ev == OnEvade && source.newSpawning) ==> r == [])
  {
    match LookupCreature(reg, source)
    case None => []
    case Some(info) =>
      if !Has(info.flag, ReverseEventMask(ev)) then []
      else
        var master := FindMaster(h, w, source, info);
        if (master.None? || master.value.IsCorpse()) && ev == OnEvade && source.newSpawning then
          [SpawnManagerRespawn(info.masterDbGuid)]
        else if master.None? then []
        else
          var m := master.value;
          match ev
          case OnAggro => if m.playerControlled then [] else [EnterCombat(m, enemy.value)]
          case OnEvade => WhenThen(!m.IsAlive(), Respawn(m.guid))
          case OnRespawn => WhenThen(m.IsAlive(), MoveFollow(source.guid, m.guid))
          case OnDie => []
          case OnDespawn => []
  }

  datatype EventOutcome = EventOutcome(holder: Holder, commands: seq<Command>)

  /** The early returns of `DoCreatureLinkingEvent`. */
  predicate Ignored(reg: Registry, ev: LinkingEvent, source: Creature, enemy: Option<ObjGuid>) {
    !IsLinkedEventTrigger(reg, source) || source.playerControlled || (ev == OnAggro && enemy.None?)
  }

  function UpdateGroups(m: map<nat, seq<Group>>, k: nat, gs: seq<Group>): map<nat, seq<Group>> {
    if k in m then m[k := gs] else m
  }

  /**
   * `DoCreatureLinkingEvent`: an ignored event changes nothing. Otherwise
   * the template groups under the source's entry and the guid groups under
   * its database guid are swept, groups under every other key and the
   * master index stay as they were, and the master direction follows.
   */
  function DoEvent(reg: Registry, h: Holder, w: MapState, ev: LinkingEvent, source: Creature,
                   enemy: Option<ObjGuid>, now: int): (r: EventOutcome)
    ensures Ignored(reg, ev, source, enemy) ==> r == EventOutcome(h, [])
    ensures r.holder.masters == h.masters
    ensures r.holder.entryGroups.Keys == h.entryGroups.Keys && r.holder.guidGroups.Keys == h.guidGroups.Keys
    ensures forall k :: k in h.entryGroups && k != source.entry ==> r.holder.entryGroups[k] == h.entryGroups[k]
    ensures forall k :: k in h.guidGroups && k != source.dbGuid ==> r.holder.guidGroups[k] == h.guidGroups[k]
    ensures !Ignored(reg, ev, source, enemy) ==>
              && Swept(w, ev, Groups(h.entryGroups, source.entry), Groups(r.holder.entryGroups, source.entry))
              && Swept(w, ev, Groups(h.guidGroups, source.dbGuid), Groups(r.holder.guidGroups, source.dbGuid))
  {
    if Ignored(reg, ev, source, enemy) then EventOutcome(h, [])
    else
      var byEntry := ProcessGroups(w, ev, source, Groups(h.entryGroups, source.entry), enemy, now);
      var byGuid := ProcessGroups(w, ev, source, Groups(h.guidGroups, source.dbGuid), enemy, now);
      var h' := h.(entryGroups := UpdateGroups(h.entryGroups, source.entry, byEntry.groups),
                   guidGroups := UpdateGroups(h.guidGroups, source.dbGuid, byGuid.groups));
      EventOutcome(h', byEntry.commands + byGuid.commands + MasterActions(reg, h, w, ev, source, enemy))
  }

  /**
   * An event raised while every group under the source is already being
   * processed only reaches the master direction.
   */
  lemma GuardedEventOnlyReachesMaster(reg: Registry, h: Holder, w: MapState, ev: LinkingEvent, source: Creature,
                                      enemy: Option<ObjGuid>, now: int)
    requires !Ignored(reg, ev, source, enemy)
    requires forall g :: g in Groups(h.entryGroups, source.entry) ==> g.inUse
    requires forall g :: g in Groups(h.guidGroups, source.dbGuid) ==> g.inUse
    ensures DoEvent(reg, h, w, ev, source, enemy, now).commands == MasterActions(reg, h, w, ev, source, enemy)
  {
    GuardedGroupsIssueNothing(w, ev, source, Groups(h.entryGroups, source.entry), enemy, now);
    GuardedGroupsIssueNothing(w, ev, source, Groups(h.guidGroups, source.dbGuid), enemy, now);
  }

  /** Sweeping keeps one group per key, since it keeps every group's key. */
  lemma SweptKeepsKeysDistinct(w: MapState, ev: LinkingEvent, before: seq<Group>, after: seq<Group>, byRange: bool)
    requires Swept(w, ev, before, after)
    requires DistinctKeys(before, byRange)
    ensures DistinctKeys(after, byRange)
    ensures (forall g :: g in before ==> g.searchRange == 0) ==> forall g :: g in after ==> g.searchRange == 0
  {
    if forall g :: g in before ==> g.searchRange == 0 {
      forall g | g in after ensures g.searchRange == 0 {
        var i :| 0 <= i < |after| && after[i] == g;
        assert before[i] in before;
      }
    }
  }

  /** An event keeps the holder's invariant. */
  lemma DoEventKeepsInvariant(reg: Registry, h: Holder, w: MapState, ev: LinkingEvent, source: Creature,
                              enemy: Option<ObjGuid>, now: int)
    requires HolderInvariant(h)
    ensures HolderInvariant(DoEvent(reg, h, w, ev, source, enemy, now).holder)
  {
    var r := DoEvent(reg, h, w, ev, source, enemy, now).holder;
    if !Ignored(reg, ev, source, enemy) {
      if source.entry in h.entryGroups {
        SweptKeepsKeysDistinct(w, ev, h.entryGroups[source.entry], r.entryGroups[source.entry], true);
      }
      if source.dbGuid in h.guidGroups {
        SweptKeepsKeysDistinct(w, ev, h.guidGroups[source.dbGuid], r.guidGroups[source.dbGuid], false);
      }
      forall k, g | k in r.guidGroups && g in r.guidGroups[k] ensures g.searchRange == 0 {
        if k != source.dbGuid {
          assert g in h.guidGroups[k];
        }
      }
    }
  }

  /** The groups an event from `source` processes in one domain: by template entry, or by database guid. */
  function SourceGroups(h: Holder, source: Creature, byGuid: bool): seq<Group> {
    if byGuid then Groups(h.guidGroups, source.dbGuid) else Groups(h.entryGroups, source.entry)
  }

  /**
   * Lazy pruning: once a slave no longer resolves, an event from its master
   * removes it from every group the event processes, in either domain.
   */
  lemma VanishedSlaveIsPruned(reg: Registry, h: Holder, w: MapState, ev: LinkingEvent, source: Creature,
                              enemy: Option<ObjGuid>, now: int, x: SlaveRef, byGuid: bool, i: nat)
    requires !Ignored(reg, ev, source, enemy)
    requires !Resolves(w, x)
    requires i < |SourceGroups(h, source, byGuid)|
    requires !SourceGroups(h, source, byGuid)[i].inUse
    requires SourceGroups(h, source, byGuid)[i].flag & EventMask(ev) != 0
    ensures x !in SourceGroups(DoEvent(reg, h, w, ev, source, enemy, now).holder, source, byGuid)[i].slaves
  {
    var after := SourceGroups(DoEvent(reg, h, w, ev, source, enemy, now).holder, source, byGuid);
    SurvivingPrunesExactly(w, SourceGroups(h, source, byGuid)[i].slaves);
    assert multiset(after[i].slaves)[x] == 0;
  }

  /**
   * What an event that is not ignored issues: every command of each list
   * walk of a group under the source that is not in use, in either domain,
   * followed by the master direction.
   */
  lemma DoEventIssuesGroupsAndMaster(reg: Registry, h: Holder, w: MapState, ev: LinkingEvent, source: Creature,
                                     enemy: Option<ObjGuid>, now: int, byGuid: bool, i: nat)
    requires !Ignored(reg, ev, source, enemy)
    requires i < |SourceGroups(h, source, byGuid)| && !SourceGroups(h, source, byGuid)[i].inUse
    ensures var g := SourceGroups(h, source, byGuid)[i];
            var walk := ProcessSlaveGuidList(w, ev, source, g.flag & EventMask(ev), g.searchRange, g.slaves, enemy, now);
            var r := DoEvent(reg, h, w, ev, source, enemy, now).commands;
            && (forall c :: c in walk.commands ==> c in r)
            && r[|r| - |MasterActions(reg, h, w, ev, source, enemy)|..] == MasterActions(reg, h, w, ev, source, enemy)
  {
    ProcessGroupsIssuesEveryGroup(w, ev, source, SourceGroups(h, source, byGuid), enemy, now, i);
  }

  /**
   * The converse of `DoEventIssuesGroupsAndMaster`: every command an event
   * issues is master-side or one a list walk of a group under the source
   * that is not in use may issue.
   */
  lemma DoEventIssuesOnlyGroupsAndMaster(reg: Registry, h: Holder, w: MapState, ev: LinkingEvent, source: Creature,
                                         enemy: Option<ObjGuid>, now: int)
    ensures !Ignored(reg, ev, source, enemy) ==>
              forall c :: c in DoEvent(reg, h, w, ev, source, enemy, now).commands ==>
                || c in MasterActions(reg, h, w, ev, source, enemy)
                || exists byGuid: bool, g :: g in SourceGroups(h, source, byGuid) && FromGroup(w, ev, source, g, enemy, now, c)
  {
    if !Ignored(reg, ev, source, enemy) {
      var byEntry := ProcessGroups(w, ev, source, SourceGroups(h, source, false), enemy, now);
      var byGuid := ProcessGroups(w, ev, source, SourceGroups(h, source, true), enemy, now);
      var master := MasterActions(reg, h, w, ev, source, enemy);
      assert DoEvent(reg, h, w, ev, source, enemy, now).commands == byEntry.commands + byGuid.commands + master;
      forall c | c in byEntry.commands + byGuid.commands + master
        ensures || c in master
                || exists byGuid: bool, g :: g in SourceGroups(h, source, byGuid) && FromGroup(w, ev, source, g, enemy, now, c)
      {
        if c in byEntry.commands {
          var g :| g in SourceGroups(h, source, false) && FromGroup(w, ev, source, g, enemy, now, c);
        } else if c in byGuid.commands {
          var g :| g in SourceGroups(h, source, true) && FromGroup(w, ev, source, g, enemy, now, c);
        }
      }
    }
  }
}

=== FILE: LinkingFlags.dfy ===
/**
 * The behaviour flags of a creature link and the events that trigger them.
 *
 * A link's flag word is read from the database as a 16-bit value, so it is
 * modelled as a `bv16`. The bit values are those of `CreatureLinkingFlags`;
 * every property below relies only on their being distinct single bits below
 * `LinkingFlagInvalid`, which `NamedFlagsAreDistinctValidBits` proves.
 */
module LinkingFlags {

  type Flags = bv16

  // Dynamic behaviour, in combat
  const AggroOnAggro: Flags := 0x0001
  const ToAggroOnAggro: Flags := 0x0002
  const RespawnOnEvade: Flags := 0x0004
  const ToRespawnOnEvade: Flags := 0x0008
  const DespawnOnDeath: Flags := 0x0010
  const SelfkillOnDeath: Flags := 0x0020
  const RespawnOnDeath: Flags := 0x0040
  const RespawnOnRespawn: Flags := 0x0080
  const DespawnOnRespawn: Flags := 0x0100
  // Dynamic behaviour, out of combat
  const Follow: Flags := 0x0200
  // Passive behaviour
  const CantSpawnIfBossDead: Flags := 0x0400
  const CantSpawnIfBossAlive: Flags := 0x0800
  const DespawnOnEvade: Flags := 0x1000
  const EvadeOnEvade: Flags := 0x2000
  const DespawnOnDespawn: Flags := 0x4000
  /** First bit that no implemented behaviour uses. */
  const LinkingFlagInvalid: Flags := 0x8000

  /** Flags that need a unique master when the link is map-wide. */
  const UniqueMasterFlags: Flags := Follow | CantSpawnIfBossDead | CantSpawnIfBossAlive
  /** Flags that gate spawning on the master's state. */
  const SpawnGateFlags: Flags := CantSpawnIfBossDead | CantSpawnIfBossAlive
  /** Flags that make a slave itself act on its master (reverse actions, following). */
  const TriggerToMask: Flags := ToAggroOnAggro | ToRespawnOnEvade | Follow
  /** Slave actions that the newer spawning system performs through its spawn manager. */
  const RespawnActions: Flags := RespawnOnEvade | RespawnOnDeath | RespawnOnRespawn

  predicate Has(f: Flags, bits: Flags) {
    f & bits != 0
  }

  /** The flag test of the loader: no bit at or above the invalid bit, and not empty. */
  function IsValidFlag(f: Flags): (ok: bool)
    ensures ok <==> 0 < f < LinkingFlagInvalid
  {
    f & !(LinkingFlagInvalid - 1) == 0 && f != 0
  }

  /** The named flags, in bit order: flag `i` is bit `i`, so they are distinct single bits below the invalid bit. */
  lemma NamedFlagsAreDistinctValidBits()
    ensures |NamedFlags()| == 15
    ensures forall i :: 0 <= i < |NamedFlags()| ==> NamedFlags()[i] == 1 << i && IsValidFlag(NamedFlags()[i])
  {
    var s := NamedFlags();
    forall i | 0 <= i < |s| ensures s[i] == 1 << i && IsValidFlag(s[i]) {
      if i == 0 { assert s[i] == 1 << 0; }
      else if i == 1 { assert s[i] == 1 << 1; }
      else if i == 2 { assert s[i] == 1 << 2; }
      else if i == 3 { assert s[i] == 1 << 3; }
      else if i == 4 { assert s[i] == 1 << 4; }
      else if i == 5 { assert s[i] == 1 << 5; }
      else if i == 6 { assert s[i] == 1 << 6; }
      else if i == 7 { assert s[i] == 1 << 7; }
      else if i == 8 { assert s[i] == 1 << 8; }
      else if i == 9 { assert s[i] == 1 << 9; }
      else if i == 10 { assert s[i] == 1 << 10; }
      else if i == 11 { assert s[i] == 1 << 11; }
      else if i == 12 { assert s[i] == 1 << 12; }
      else if i == 13 { assert s[i] == 1 << 13; }
      else { assert s[i] == 1 << 14; }
    }
  }

  function NamedFlags(): seq<Flags> {
    [AggroOnAggro, ToAggroOnAggro, RespawnOnEvade, ToRespawnOnEvade, DespawnOnDeath,
     SelfkillOnDeath, RespawnOnDeath, RespawnOnRespawn, DespawnOnRespawn, Follow,
     CantSpawnIfBossDead, CantSpawnIfBossAlive, DespawnOnEvade, EvadeOnEvade, DespawnOnDespawn]
  }

  /** Lifecycle events a creature reports to its map's linking holder. */
  datatype LinkingEvent = OnAggro | OnEvade | OnDie | OnRespawn | OnDespawn

  /** The slave-direction flags each event acts on (`EventMask`). */
  function EventMask(e: LinkingEvent): (mask: Flags)
    ensures IsValidFlag(mask)
    ensures Has(mask, Follow) <==> e == OnDie || e == OnRespawn
    ensures mask & (TriggerToMask | SpawnGateFlags) & !Follow == 0
  {
    match e
    case OnAggro => AggroOnAggro
    case OnEvade => RespawnOnEvade | DespawnOnEvade | EvadeOnEvade
    case OnDie => DespawnOnDeath | SelfkillOnDeath | RespawnOnDeath | Follow
    case OnRespawn => RespawnOnRespawn | DespawnOnRespawn | Follow
    case OnDespawn => DespawnOnDespawn
  }

  /** The master-direction flag each event acts on; death and despawn have none. */
  function ReverseEventMask(e: LinkingEvent): (mask: Flags)
    ensures mask == 0 <==> e == OnDie || e == OnDespawn
    ensures mask & !TriggerToMask == 0
    ensures mask & (mask - 1) == 0
  {
    match e
    case OnAggro => ToAggroOnAggro
    case OnEvade => ToRespawnOnEvade
    case OnDie => 0
    case OnRespawn => Follow
    case OnDespawn => 0
  }

  /**
   * Events act on separate bits: two events' slave masks share at most the
   * follow bit, and each master-direction filter is a single bit that no
   * other event's filter has.
   */
  lemma EventMasksSeparate(e1: LinkingEvent, e2: LinkingEvent)
    requires e1 != e2
    ensures EventMask(e1) & EventMask(e2) & !Follow == 0
    ensures ReverseEventMask(e1) & ReverseEventMask(e2) == 0
  {
  }

  /**
   * Between them the events act on every slave-direction flag: each valid
   * bit that is neither master-side nor a spawn gate, and the follow bit,
   * lies in some event's mask.
   */
  lemma EventMasksCoverSlaveFlags()
    ensures EventMask(OnAggro) | EventMask(OnEvade) | EventMask(OnDie) | EventMask(OnRespawn) | EventMask(OnDespawn)
            == ((LinkingFlagInvalid - 1) & !(TriggerToMask | SpawnGateFlags)) | Follow
  {
  }
}

=== FILE: LinkingHolder.dfy ===
/**
 * The per-map runtime holder (`CreatureLinkingHolder`): live slaves grouped
 * by master key and link semantics, and the live masters of each master entry.
 *
 * Template links group under the master entry in `entryGroups`, keyed within
 * a master by (flag, search range); guid links group under the master's
 * database guid in `guidGroups`, keyed by flag alone and always map-wide.
 */
module LinkingHolder {
  import opened Wrappers
  import opened LinkingFlags
  import opened World
  import opened LinkRegistry

  /** A slave as the holder remembers it: its database guid (0 if none) and object guid. */
  datatype SlaveRef = SlaveRef(dbGuid: nat, guid: ObjGuid)

  /** `InfoAndGuids`: the slaves sharing one link semantics, and the re-entrancy guard. */
  datatype Group = Group(flag: Flags, searchRange: U16, slaves: seq<SlaveRef>, inUse: bool)

  datatype Holder = Holder(
    entryGroups: map<nat, seq<Group>>,
    guidGroups: map<nat, seq<Group>>,
    masters: map<nat, seq<ObjGuid>>)

  function Groups(m: map<nat, seq<Group>>, k: nat): seq<Group> {
    if k in m then m[k] else []
  }

  function Masters(m: map<nat, seq<ObjGuid>>, k: nat): seq<ObjGuid> {
    if k in m then m[k] else []
  }

  /** Whether group `g` is the group for (flag, range); guid groups compare the flag only. */
  predicate Matches(g: Group, flag: Flags, range: U16, byRange: bool) {
    g.flag == flag && (!byRange || g.searchRange == range)
  }

  /** No two groups under one master key share their grouping key. */
  ghost predicate DistinctKeys(gs: seq<Group>, byRange: bool) {
    forall i, j :: 0 <= i < j < |gs| ==> !Matches(gs[j], gs[i].flag, gs[i].searchRange, byRange)
  }

  predicate NoDuplicates(s: seq<ObjGuid>) {
    forall i, j :: 0 <= i < j < |s| ==> s[i] != s[j]
  }

  /**
   * The holder's invariant: one group per key in both domains, guid groups
   * map-wide, and each master entry listing each master object once.
   */
  ghost predicate HolderInvariant(h: Holder) {
    && (forall k :: k in h.entryGroups ==> DistinctKeys(h.entryGroups[k], true))
    && (forall k :: k in h.guidGroups ==> DistinctKeys(h.guidGroups[k], false))
    && (forall k, g :: k in h.guidGroups && g in h.guidGroups[k] ==> g.searchRange == 0)
    && (forall k :: k in h.masters ==> NoDuplicates(h.masters[k]))
  }

  /** The first group for (flag, range), if there is one. */
  function FindGroup(gs: seq<Group>, flag: Flags, range: U16, byRange: bool): (r: Option<nat>)
    ensures r.Some? ==> r.value < |gs| && Matches(gs[r.value], flag, range, byRange)
                        && forall j :: 0 <= j < r.value ==> !Matches(gs[j], flag, range, byRange)
    ensures r.None? ==> forall j :: 0 <= j < |gs| ==> !Matches(gs[j], flag, range, byRange)
  {
    if gs == [] then None
    else if Matches(gs[0], flag, range, byRange) then Some(0)
    else match FindGroup(gs[1..], flag, range, byRange)
      case None => None
      case Some(j) => Some(j + 1)
  }

  /**
   * Adds a slave under one master key: appended to the group with the same
   * key, or to a new group at the end when none exists.
   */
  function InsertSlave(gs: seq<Group>, flag: Flags, range: U16, byRange: bool, ref: SlaveRef): (r: seq<Group>)
    ensures |r| == |gs| || r == gs + [Group(flag, range, [ref], false)]
    ensures forall i :: 0 <= i < |gs| ==>
              r[i].flag == gs[i].flag && r[i].searchRange == gs[i].searchRange && r[i].inUse == gs[i].inUse
    ensures forall i :: 0 <= i < |gs| && !Matches(gs[i], flag, range, byRange) ==> r[i] == gs[i]
    ensures exists j :: 0 <= j < |r| && Matches(r[j], flag, range, byRange) && EndsWith(r[j].slaves, ref)
              && (j < |gs| ==> r[j].slaves == gs[j].slaves + [ref])
              && forall i :: 0 <= i < |r| && i != j ==> i < |gs| && r[i] == gs[i]
  {
    match FindGroup(gs, flag, range, byRange)
    case Some(j) =>
      var r := gs[j := gs[j].(slaves := gs[j].slaves + [ref])];
      assert Matches(r[j], flag, range, byRange) && EndsWith(r[j].slaves, ref);
      r
    case None =>
      var r := gs + [Group(flag, range, [ref], false)];
      assert Matches(r[|gs|], flag, range, byRange) && EndsWith(r[|gs|].slaves, ref);
      r
  }

  predicate EndsWith(s: seq<SlaveRef>, ref: SlaveRef) {
    |s| > 0 && s[|s| - 1] == ref
  }

  /** Inserting a slave never creates a second group for a key. */
  lemma InsertSlaveKeepsKeysDistinct(gs: seq<Group>, flag: Flags, range: U16, byRange: bool, ref: SlaveRef)
    requires DistinctKeys(gs, byRange)
    requires !byRange ==> range == 0 && forall g :: g in gs ==> g.searchRange == 0
    ensures DistinctKeys(InsertSlave(gs, flag, range, byRange, ref), byRange)
    ensures !byRange ==> forall g :: g in InsertSlave(gs, flag, range, byRange, ref) ==> g.searchRange == 0
    ensures var r := InsertSlave(gs, flag, range, byRange, ref);
            exists j :: 0 <= j < |r| && Matches(r[j], flag, range, byRange) && EndsWith(r[j].slaves, ref)
                        && forall i :: 0 <= i < |r| && i != j ==> !Matches(r[i], flag, range, byRange)
  {
    var r := InsertSlave(gs, flag, range, byRange, ref);
    match FindGroup(gs, flag, range, byRange)
    case Some(j) =>
      assert forall i :: 0 <= i < |r| && i != j ==> !Matches(r[i], flag, range, byRange);
    case None =>
      assert forall i :: 0 <= i < |gs| ==> r[i] == gs[i];
      assert forall i :: 0 <= i < |r| && i != |gs| ==> !Matches(r[i], flag, range, byRange);
  }

  /**
   * `AddSlaveToHolder`: a creature with a link joins the group of its master
   * key in the domain its descriptor came from; guid groups are created
   * map-wide; a creature without a link changes nothing.
   */
  function AddSlave(reg: Registry, h: Holder, c: Creature): (r: Holder)
    ensures r.masters == h.masters
    ensures LookupCreature(reg, c).None? ==> r == h
    ensures LookupCreature(reg, c).Some? && LookupCreature(reg, c).value.mapId == InvalidMapId ==>
              var info := LookupCreature(reg, c).value;
              r.entryGroups == h.entryGroups
              && r.guidGroups == h.guidGroups[info.masterId := InsertSlave(Groups(h.guidGroups, info.masterId), info.flag, 0, false, SlaveRef(c.dbGuid, c.guid))]
    ensures LookupCreature(reg, c).Some? && LookupCreature(reg, c).value.mapId != InvalidMapId ==>
              var info := LookupCreature(reg, c).value;
              r.guidGroups == h.guidGroups
              && r.entryGroups == h.entryGroups[info.masterId := InsertSlave(Groups(h.entryGroups, info.masterId), info.flag, info.searchRange, true, SlaveRef(c.dbGuid, c.guid))]
  {
    match LookupCreature(reg, c)
    case None => h
    case Some(info) =>
      var ref := SlaveRef(c.dbGuid, c.guid);
      if info.mapId == InvalidMapId then
        h.(guidGroups := h.guidGroups[info.masterId := InsertSlave(Groups(h.guidGroups, info.masterId), info.flag, 0, false, ref)])
      else
        h.(entryGroups := h.entryGroups[info.masterId := InsertSlave(Groups(h.entryGroups, info.masterId), info.flag, info.searchRange, true, ref)])
  }

  /** Registering slaves keeps the holder's invariant. */
  lemma AddSlaveKeepsInvariant(reg: Registry, h: Holder, c: Creature)
    requires HolderInvariant(h)
    ensures HolderInvariant(AddSlave(reg, h, c))
  {
    match LookupCreature(reg, c)
    case None =>
    case Some(info) =>
      var ref := SlaveRef(c.dbGuid, c.guid);
      if info.mapId == InvalidMapId {
        InsertSlaveKeepsKeysDistinct(Groups(h.guidGroups, info.masterId), info.flag, 0, false, ref);
      } else {
        InsertSlaveKeepsKeysDistinct(Groups(h.entryGroups, info.masterId), info.flag, info.searchRange, true, ref);
      }
  }

  /**
   * After registration the slave is the newest member of the one group under
   * its master key whose key equals its descriptor's (flag[, search range]).
   */
  lemma AddSlaveRegisters(reg: Registry, h: Holder, c: Creature)
    requires HolderInvariant(h)
    requires LookupCreature(reg, c).Some?
    ensures var info := LookupCreature(reg, c).value;
            var byRange := info.mapId != InvalidMapId;
            var range: U16 := if byRange then info.searchRange else 0;
            var r := AddSlave(reg, h, c);
            var gs := Groups(if byRange then r.entryGroups else r.guidGroups, info.masterId);
            exists j :: 0 <= j < |gs| && Matches(gs[j], info.flag, range, byRange)
                        && EndsWith(gs[j].slaves, SlaveRef(c.dbGuid, c.guid))
                        && forall i :: 0 <= i < |gs| && i != j ==> !Matches(gs[i], info.flag, range, byRange)
  {
    var info := LookupCreature(reg, c).value;
    var ref := SlaveRef(c.dbGuid, c.guid);
    var r := AddSlave(reg, h, c);
    if info.mapId == InvalidMapId {
      InsertSlaveKeepsKeysDistinct(Groups(h.guidGroups, info.masterId), info.flag, 0, false, ref);
      assert Groups(r.guidGroups, info.masterId) == InsertSlave(Groups(h.guidGroups, info.masterId), info.flag, 0, false, ref);
    } else {
      InsertSlaveKeepsKeysDistinct(Groups(h.entryGroups, info.masterId), info.flag, info.searchRange, true, ref);
      assert Groups(r.entryGroups, info.masterId) == InsertSlave(Groups(h.entryGroups, info.masterId), info.flag, info.searchRange, true, ref);
    }
  }

  /**
   * `AddMasterToHolder`: a non-pet creature whose entry masters some template
   * link is recorded once under its entry; everything else is ignored.
   */
  function AddMaster(reg: Registry, h: Holder, c: Creature): (r: Holder)
    ensures r.entryGroups == h.entryGroups && r.guidGroups == h.guidGroups
    ensures forall k :: k != c.entry ==> Masters(r.masters, k) == Masters(h.masters, k)
    ensures c.guid in Masters(r.masters, c.entry) <==>
              c.guid in Masters(h.masters, c.entry) || (!c.isPet && IsLinkedMaster(reg, c))
    ensures forall g :: g in Masters(h.masters, c.entry) ==> g in Masters(r.masters, c.entry)
    ensures forall g :: g in Masters(r.masters, c.entry) && g != c.guid ==> g in Masters(h.masters, c.entry)
    ensures NoDuplicates(Masters(h.masters, c.entry)) ==> NoDuplicates(Masters(r.masters, c.entry))
    ensures !c.isPet && IsLinkedMaster(reg, c) && c.guid !in Masters(h.masters, c.entry) ==>
              Masters(r.masters, c.entry) == Masters(h.masters, c.entry) + [c.guid]
    ensures c.isPet || !IsLinkedMaster(reg, c) || c.guid in Masters(h.masters, c.entry) ==> r == h
  {
    if c.isPet || !IsLinkedMaster(reg, c) then h
    else
      var ms := Masters(h.masters, c.entry);
      if c.guid in ms then h
      else h.(masters := h.masters[c.entry := ms + [c.guid]])
  }

  /** Registering a master twice is the same as registering it once. */
  lemma AddMasterIdempotent(reg: Registry, h: Holder, c: Creature)
    ensures AddMaster(reg, AddMaster(reg, h, c), c) == AddMaster(reg, h, c)
  {
  }

  lemma AddMasterKeepsInvariant(reg: Registry, h: Holder, c: Creature)
    requires HolderInvariant(h)
    ensures HolderInvariant(AddMaster(reg, h, c))
  {
    var r := AddMaster(reg, h, c);
    forall k | k in r.masters ensures NoDuplicates(r.masters[k]) {
      if k != c.entry {
        assert Masters(r.masters, k) == Masters(h.masters, k);
      }
    }
  }
}

=== FILE: SpawnGate.dfy ===
/**
 * The passive spawn gate (`CanSpawn`, both overloads, and `IsRespawnReady`).
 *
 * The database-guid overload can recurse: a map-wide gate asks whether its
 * master is ready to respawn, and that master may itself be gated on a
 * further master. The code bounds this recursion by nothing, so the model
 * carries a `fuel` argument and answers `None` when the fuel runs out; with
 * enough fuel the answer no longer depends on it (`DecideFuelMonotone`).
 */
module SpawnGate {
  import opened Wrappers
  import opened LinkingFlags
  import opened World
  import opened LinkRegistry
  import opened LinkingHolder
  import opened LinkingEvents

  /** Everything the gate reads: the registry, the map's holder, the map, the spawn tables and the clock. */
  datatype GateContext = GateContext(reg: Registry, holder: Holder, world: MapState, db: WorldDb, now: int)

  /** A master in this state blocks its slave's spawn under this flag word. */
  predicate Blocks(flag: Flags, masterAlive: bool) {
    if Has(flag, CantSpawnIfBossDead) then !masterAlive
    else Has(flag, CantSpawnIfBossAlive) && masterAlive
  }

  /** The persisted respawn time of a spawn has passed (or none is stored). */
  predicate RespawnTimeElapsed(ctx: GateContext, dbGuid: nat) {
    var t := SavedRespawnTime(ctx.world, dbGuid);
    t == 0 || t <= ctx.now
  }

  /** A pooled spawn that its pool has not chosen may not respawn. */
  predicate HeldBackByPool(ctx: GateContext, dbGuid: nat) {
    dbGuid in ctx.world.pooled && dbGuid !in ctx.world.spawnedPoolObjects
  }

  /** The master the scoped gate consults: the first registered one that resolves and is in range. */
  function ScopedMaster(ctx: GateContext, info: LinkInfo, sx: real, sy: real): Option<Creature> {
    SelectMaster(ctx.world, Masters(ctx.holder.masters, info.masterId), sx, sy, info.searchRange)
  }

  /** A flag word has a gate bit exactly when it has one of the two. */
  lemma GateBits(flag: Flags)
    ensures Has(flag, SpawnGateFlags) <==> Has(flag, CantSpawnIfBossDead) || Has(flag, CantSpawnIfBossAlive)
  {
  }

  /** A decision turned round; an undecided answer stays undecided. */
  function Negate(d: Option<bool>): (r: Option<bool>)
    ensures r.Some? == d.Some? && (r.Some? ==> r.value == !d.value)
  {
    match d
    case None => None
    case Some(b) => Some(!b)
  }

  /**
   * The common body of both `CanSpawn` overloads, once the descriptor and the
   * spawn position are known: map-wide links and scoped links are decided
   * apart. A link without gate flags spawns unless it is map-wide without a
   * resolved master.
   */
  function Decide(fuel: nat, ctx: GateContext, info: LinkInfo, sx: real, sy: real): (r: Option<bool>)
    ensures !Has(info.flag, SpawnGateFlags) ==> r == Some(!(info.searchRange == 0 && info.masterDbGuid == 0))
    ensures info.searchRange > 0 ==> r.Some?
    decreases fuel, 3
  {
    if info.searchRange == 0 then MapWideDecision(fuel, ctx, info)
    else Some(ScopedDecision(ctx, info, sx, sy))
  }

  /**
   * The map-wide gate: without a resolved master the creature never spawns;
   * "cannot spawn while the boss is dead" refuses during an encounter and
   * otherwise spawns only if the master is ready to respawn; "cannot spawn
   * while the boss is alive" spawns exactly when the master is not ready.
   */
  function MapWideDecision(fuel: nat, ctx: GateContext, info: LinkInfo): (r: Option<bool>)
    ensures info.masterDbGuid == 0 ==> r == Some(false)
    ensures !Has(info.flag, SpawnGateFlags) ==> r == Some(info.masterDbGuid != 0)
    ensures Has(info.flag, CantSpawnIfBossDead) && ctx.world.encounterInProgress ==> r == Some(false)
    ensures var m := info.masterDbGuid;
            m != 0 && Has(info.flag, CantSpawnIfBossDead) && !ctx.world.encounterInProgress ==>
              r == IsRespawnReady(fuel, ctx, m)
    ensures var m := info.masterDbGuid;
            m != 0 && !Has(info.flag, CantSpawnIfBossDead) && Has(info.flag, CantSpawnIfBossAlive) ==>
              r == Negate(IsRespawnReady(fuel, ctx, m))
    decreases fuel, 2
  {
    GateBits(info.flag);
    if info.masterDbGuid == 0 then Some(false)
    else if Has(info.flag, CantSpawnIfBossDead) then
      if ctx.world.encounterInProgress then Some(false)
      else IsRespawnReady(fuel, ctx, info.masterDbGuid)
    else if Has(info.flag, CantSpawnIfBossAlive) then
      Negate(IsRespawnReady(fuel, ctx, info.masterDbGuid))
    else Some(true)
  }

  /**
   * The scoped gate: the first registered master that resolves and is in
   * range decides by its liveness; with none in range the creature spawns.
   */
  function ScopedDecision(ctx: GateContext, info: LinkInfo, sx: real, sy: real): (r: bool)
    ensures r == match ScopedMaster(ctx, info, sx, sy)
                 case None => true
                 case Some(m) => !Blocks(info.flag, m.IsAlive())
  {
    match ScopedMaster(ctx, info, sx, sy)
    case None => true
    case Some(m) =>
      if Has(info.flag, CantSpawnIfBossDead) then m.IsAlive()
      else if Has(info.flag, CantSpawnIfBossAlive) then !m.IsAlive()
      else true
  }

  /**
   * `IsRespawnReady`: a spawn is ready exactly when its respawn time has
   * passed, its own gate lets it spawn, and its pool (if any) has chosen it.
   */
  function IsRespawnReady(fuel: nat, ctx: GateContext, dbGuid: nat): (r: Option<bool>)
    ensures !RespawnTimeElapsed(ctx, dbGuid) ==> r == Some(false)
    ensures r == Some(true) ==> RespawnTimeElapsed(ctx, dbGuid) && !HeldBackByPool(ctx, dbGuid)
    ensures r == Some(true) ==> CanSpawnByGuid(fuel, ctx, dbGuid) == Some(true)
    ensures RespawnTimeElapsed(ctx, dbGuid) && !HeldBackByPool(ctx, dbGuid) ==> r == CanSpawnByGuid(fuel, ctx, dbGuid)
    ensures r == Some(true) <==>
              RespawnTimeElapsed(ctx, dbGuid) && !HeldBackByPool(ctx, dbGuid) && CanSpawnByGuid(fuel, ctx, dbGuid) == Some(true)
    ensures r.None? <==> RespawnTimeElapsed(ctx, dbGuid) && CanSpawnByGuid(fuel, ctx, dbGuid).None?
    decreases fuel, 1
  {
    if !RespawnTimeElapsed(ctx, dbGuid) then Some(false)
    else
      match CanSpawnByGuid(fuel, ctx, dbGuid)
      case None => None
      case Some(ok) => Some(ok && !HeldBackByPool(ctx, dbGuid))
  }

  /** The descriptor the recursive overload re-derives from the spawn table, if the spawn is spawn-gated. */
  function GateOf(ctx: GateContext, dbGuid: nat): Option<LinkInfo> {
    if dbGuid !in ctx.db.spawns then None
    else
      var data := ctx.db.spawns[dbGuid];
      match Lookup(ctx.reg, data.id, dbGuid, data.mapId)
      case None => None
      case Some(info) => if IsSpawnedByLinkedMob(info) then Some(info) else None
  }

  /**
   * `CanSpawn(dbGuid, map, nullptr, ..)`: a spawn that is missing, unlinked
   * or not spawn-gated may spawn; otherwise its gate decides, from its
   * stored spawn position. Each such step costs one unit of fuel.
   */
  function CanSpawnByGuid(fuel: nat, ctx: GateContext, dbGuid: nat): (r: Option<bool>)
    ensures GateOf(ctx, dbGuid).None? ==> r == Some(true)
    ensures fuel == 0 && GateOf(ctx, dbGuid).Some? ==> r.None?
    decreases fuel, 0
  {
    match GateOf(ctx, dbGuid)
    case None => Some(true)
    case Some(info) =>
      if fuel == 0 then None
      else Decide(fuel - 1, ctx, info, ctx.db.spawns[dbGuid].x, ctx.db.spawns[dbGuid].y)
  }

  /**
   * `CanSpawn(Creature*)`: an unlinked creature may spawn; otherwise its
   * descriptor decides from its respawn position. Unlike the recursive
   * overload this one does not ask whether the link is spawn-gated.
   */
  function CanSpawn(fuel: nat, ctx: GateContext, c: Creature): (r: Option<bool>)
    ensures LookupCreature(ctx.reg, c).None? ==> r == Some(true)
    ensures LookupCreature(ctx.reg, c).Some? && !Has(LookupCreature(ctx.reg, c).value.flag, SpawnGateFlags) ==>
              r == Some(!(LookupCreature(ctx.reg, c).value.searchRange == 0
                          && LookupCreature(ctx.reg, c).value.masterDbGuid == 0))
  {
    match LookupCreature(ctx.reg, c)
    case None => Some(true)
    case Some(info) => Decide(fuel, ctx, info, c.home.x, c.home.y)
  }

  /** Once decided, more fuel does not change the gate's answer. */
  lemma {:induction false} DecideFuelMonotone(f1: nat, f2: nat, ctx: GateContext, info: LinkInfo, sx: real, sy: real)
    requires f1 <= f2
    requires Decide(f1, ctx, info, sx, sy).Some?
    ensures Decide(f2, ctx, info, sx, sy) == Decide(f1, ctx, info, sx, sy)
    decreases f1, 3
  {
    if info.searchRange == 0 {
      MapWideFuelMonotone(f1, f2, ctx, info);
    }
  }

  lemma {:induction false} MapWideFuelMonotone(f1: nat, f2: nat, ctx: GateContext, info: LinkInfo)
    requires f1 <= f2
    requires MapWideDecision(f1, ctx, info).Some?
    ensures MapWideDecision(f2, ctx, info) == MapWideDecision(f1, ctx, info)
    decreases f1, 2
  {
    if info.masterDbGuid == 0 {
    } else if Has(info.flag, CantSpawnIfBossDead) {
      if !ctx.world.encounterInProgress {
        IsRespawnReadyFuelMonotone(f1, f2, ctx, info.masterDbGuid);
      }
    } else if Has(info.flag, CantSpawnIfBossAlive) {
      assert IsRespawnReady(f1, ctx, info.masterDbGuid).Some?;
      IsRespawnReadyFuelMonotone(f1, f2, ctx, info.masterDbGuid);
    }
  }

  lemma {:induction false} IsRespawnReadyFuelMonotone(f1: nat, f2: nat, ctx: GateContext, dbGuid: nat)
    requires f1 <= f2
    requires IsRespawnReady(f1, ctx, dbGuid).Some?
    ensures IsRespawnReady(f2, ctx, dbGuid) == IsRespawnReady(f1, ctx, dbGuid)
    decreases f1, 1
  {
    if RespawnTimeElapsed(ctx, dbGuid) {
      CanSpawnByGuidFuelMonotone(f1, f2, ctx, dbGuid);
    }
  }

  lemma {:induction false} CanSpawnByGuidFuelMonotone(f1: nat, f2: nat, ctx: GateContext, dbGuid: nat)
    requires f1 <= f2
    requires CanSpawnByGuid(f1, ctx, dbGuid).Some?
    ensures CanSpawnByGuid(f2, ctx, dbGuid) == CanSpawnByGuid(f1, ctx, dbGuid)
    decreases f1, 0
  {
    match GateOf(ctx, dbGuid)
    case None =>
    case Some(info) =>
      var data := ctx.db.spawns[dbGuid];
      DecideFuelMonotone(f1 - 1, f2 - 1, ctx, info, data.x, data.y);
  }

  /**
   * The master a spawn's gate recurses into: present when the spawn is
   * spawn-gated map-wide with a resolved master.
   */
  function GateMaster(ctx: GateContext, dbGuid: nat): Option<nat> {
    match GateOf(ctx, dbGuid)
    case None => None
    case Some(info) => if info.searchRange == 0 then Some(info.masterDbGuid) else None
  }

  /** Following gate masters from `dbGuid` reaches an ungated spawn within `k` steps. */
  predicate ChainEnds(ctx: GateContext, dbGuid: nat, k: nat)
    decreases k
  {
    match GateMaster(ctx, dbGuid)
    case None => true
    case Some(m) => k > 0 && ChainEnds(ctx, m, k - 1)
  }

  /**
   * An acyclic gate configuration always decides: when the chain of gate
   * masters from a spawn ends within `k` steps, `k + 1` units of fuel suffice.
   */
  lemma {:induction false} AcyclicGateDecides(ctx: GateContext, dbGuid: nat, k: nat)
    requires ChainEnds(ctx, dbGuid, k)
    ensures CanSpawnByGuid(k + 1, ctx, dbGuid).Some?
    decreases k
  {
    match GateOf(ctx, dbGuid)
    case None =>
    case Some(info) =>
      if info.searchRange == 0 {
        var m := info.masterDbGuid;
        assert GateMaster(ctx, dbGuid) == Some(m);
        AcyclicGateDecides(ctx, m, k - 1);
        assert IsRespawnReady(k, ctx, m).Some?;
        assert MapWideDecision(k, ctx, info).Some?;
      }
  }

  /**
   * A spawn gated map-wide on itself with "cannot spawn while the boss is
   * alive", whose respawn time has passed, never decides: the recursion of
   * the source has no base case here, for any amount of fuel.
   */
  lemma {:induction false} SelfGatedNeverDecides(ctx: GateContext, dbGuid: nat, fuel: nat)
    requires GateOf(ctx, dbGuid).Some?
    requires GateOf(ctx, dbGuid).value.searchRange == 0
    requires GateOf(ctx, dbGuid).value.masterDbGuid == dbGuid
    requires !Has(GateOf(ctx, dbGuid).value.flag, CantSpawnIfBossDead)
    requires RespawnTimeElapsed(ctx, dbGuid)
    ensures CanSpawnByGuid(fuel, ctx, dbGuid).None?
    decreases fuel
  {
    if fuel > 0 {
      var info := GateOf(ctx, dbGuid).value;
      assert dbGuid != 0 && Has(info.flag, CantSpawnIfBossAlive);
      SelfGatedNeverDecides(ctx, dbGuid, fuel - 1);
      assert IsRespawnReady(fuel - 1, ctx, dbGuid).None?;
      assert MapWideDecision(fuel - 1, ctx, info).None?;
    }
  }

  /** The loader accepts such a self-gated row whenever the spawn exists. */
  lemma SelfGatedRowIsAccepted(db: WorldDb, g: nat)
    requires g in db.spawns
    ensures AcceptedGuids([GuidRow(g, g, CantSpawnIfBossAlive)], db, g)
            == [LinkInfo(InvalidMapId, g, CantSpawnIfBossAlive, 0, g)]
  {
    var row := GuidRow(g, g, CantSpawnIfBossAlive);
    assert [row][..0] == [];
    assert ReferencesExist(g, GuidInfo(row), false, db);
    assert FlagsAcceptable(g, GuidInfo(row));
  }

  /**
   * Without an encounter in progress, "cannot spawn while the boss is dead"
   * and "cannot spawn while the boss is alive" on the same map-wide master
   * give opposite answers whenever the master's readiness is known.
   */
  lemma MapWideGatesComplementary(fuel: nat, ctx: GateContext, info: LinkInfo, sx: real, sy: real)
    requires info.searchRange == 0 && info.masterDbGuid != 0
    requires !ctx.world.encounterInProgress
    requires Decide(fuel, ctx, info.(flag := CantSpawnIfBossDead), sx, sy).Some?
    ensures Decide(fuel, ctx, info.(flag := CantSpawnIfBossAlive), sx, sy)
            == Some(!Decide(fuel, ctx, info.(flag := CantSpawnIfBossDead), sx, sy).value)
  {
    assert Has(CantSpawnIfBossDead, CantSpawnIfBossDead);
    assert !Has(CantSpawnIfBossAlive, CantSpawnIfBossDead) && Has(CantSpawnIfBossAlive, CantSpawnIfBossAlive);
  }

  /**
   * The two overloads agree: for a spawn-gated creature standing at its
   * stored spawn position, the creature overload answers as the guid
   * overload does one step deeper.
   */
  lemma OverloadsAgree(fuel: nat, ctx: GateContext, c: Creature)
    requires c.dbGuid in ctx.db.spawns
    requires ctx.db.spawns[c.dbGuid] == SpawnData(c.entry, c.mapId, c.home.x, c.home.y)
    requires LookupCreature(ctx.reg, c).Some? && IsSpawnedByLinkedMob(LookupCreature(ctx.reg, c).value)
    ensures CanSpawn(fuel, ctx, c) == CanSpawnByGuid(fuel + 1, ctx, c.dbGuid)
  {
  }

  /**
   * A creature on a scoped gate with no registered master in range spawns,
   * and one whose first in-range master is in the blocking state does not.
   */
  lemma ScopedGateDecidedByFirstMaster(fuel: nat, ctx: GateContext, c: Creature)
    requires LookupCreature(ctx.reg, c).Some? && LookupCreature(ctx.reg, c).value.searchRange > 0
    ensures var info := LookupCreature(ctx.reg, c).value;
            var ms := Masters(ctx.holder.masters, info.masterId);
            && ((forall i :: 0 <= i < |ms| ==> !MasterCandidate(ctx.world, ms[i], c.home.x, c.home.y, info.searchRange))
                  ==> CanSpawn(fuel, ctx, c) == Some(true))
            && (forall i :: 0 <= i < |ms| && MasterCandidate(ctx.world, ms[i], c.home.x, c.home.y, info.searchRange)
                  && (forall j :: 0 <= j < i ==> !MasterCandidate(ctx.world, ms[j], c.home.x, c.home.y, info.searchRange))
                  ==> CanSpawn(fuel, ctx, c) == Some(!Blocks(info.flag, GetCreature(ctx.world, ms[i]).value.IsAlive())))
  {
    var info := LookupCreature(ctx.reg, c).value;
    var ms := Masters(ctx.holder.masters, info.masterId);
    var sel := SelectMaster(ctx.world, ms, c.home.x, c.home.y, info.searchRange);
    forall i | 0 <= i < |ms| && MasterCandidate(ctx.world, ms[i], c.home.x, c.home.y, info.searchRange)
               && (forall j :: 0 <= j < i ==> !MasterCandidate(ctx.world, ms[j], c.home.x, c.home.y, info.searchRange))
      ensures sel == GetCreature(ctx.world, ms[i])
    {
      var i' :| 0 <= i' < |ms| && GetCreature(ctx.world, ms[i']) == sel
                && MasterCandidate(ctx.world, ms[i'], c.home.x, c.home.y, info.searchRange)
                && forall j :: 0 <= j < i' ==> !MasterCandidate(ctx.world, ms[j], c.home.x, c.home.y, info.searchRange);
      assert i' == i;
    }
  }
}

=== FILE: World.dfy ===
/**
 * The host side the linking code reads: live creatures of one map, their
 * persisted respawn state, and the static spawn tables of the world database.
 * Every query the C++ code makes through a `Creature*`, `Map*` or `ObjectMgr`
 * is answered from these values; nothing here changes them.
 */
module World {
  import opened Wrappers

  /** A creature's object guid inside its map. */
  type ObjGuid = nat

  /** The death states the linking code distinguishes: alive, a corpse, or despawned. */
  datatype LifeState = Alive | Corpse | Despawned

  datatype Pos = Pos(x: real, y: real, z: real)

  /**
   * A live creature object. `dbGuid` is 0 for creatures without a database
   * spawn; `home` is its respawn position (`GetRespawnCoord`).
   */
  datatype Creature = Creature(
    guid: ObjGuid,
    entry: nat,
    dbGuid: nat,
    mapId: nat,
    life: LifeState,
    inCombat: bool,
    playerControlled: bool,
    isPet: bool,
    newSpawning: bool,
    respawnDelay: nat,
    respawnTime: int,
    home: Pos)
  {
    predicate IsAlive() { life == Alive }
    predicate IsCorpse() { life == Corpse }
    predicate IsDespawned() { life == Despawned }
  }

  /**
   * One map: its creature objects by object guid, which object currently
   * carries each database guid, the persisted respawn times, pool state and
   * whether its instance script reports an encounter in progress (false when
   * the map has no instance data).
   */
  datatype MapState = MapState(
    creatures: map<ObjGuid, Creature>,
    spawnedByDbGuid: map<nat, ObjGuid>,
    respawnTimes: map<nat, int>,
    pooled: set<nat>,
    spawnedPoolObjects: set<nat>,
    encounterInProgress: bool)

  function GetCreature(m: MapState, g: ObjGuid): (r: Option<Creature>)
    ensures r.Some? <==> g in m.creatures
    ensures r.Some? ==> r.value == m.creatures[g]
  {
    if g in m.creatures then Some(m.creatures[g]) else None
  }

  function GetCreatureByDbGuid(m: MapState, dbGuid: nat): (r: Option<Creature>)
    ensures r.Some? <==> dbGuid in m.spawnedByDbGuid && m.spawnedByDbGuid[dbGuid] in m.creatures
  {
    if dbGuid in m.spawnedByDbGuid then GetCreature(m, m.spawnedByDbGuid[dbGuid]) else None
  }

  /** The persisted respawn time of a database guid; 0 when none is stored. */
  function SavedRespawnTime(m: MapState, dbGuid: nat): int {
    if dbGuid in m.respawnTimes then m.respawnTimes[dbGuid] else 0
  }

  /** One row of the `creature` spawn table (`CreatureData`). */
  datatype SpawnData = SpawnData(id: nat, mapId: nat, x: real, y: real)

  /**
   * The static tables the loader validates against: creature templates,
   * the map store and the spawn table keyed by database guid.
   */
  datatype WorldDb = WorldDb(templates: set<nat>, maps: set<nat>, spawns: map<nat, SpawnData>)

  function SquaredPlanarDistance(sx: real, sy: real, p: Pos): (d: real)
    ensures d >= 0.0
  {
    (sx - p.x) * (sx - p.x) + (sy - p.y) * (sy - p.y)
  }

  /**
   * `IsSlaveInRangeOfMaster`: a range of 0 links regardless of distance;
   * otherwise the planar distance from (sx, sy) to the master's respawn
   * position must be strictly below the range. Height is ignored.
   */
  function InRange(range: nat, sx: real, sy: real, master: Pos): (r: bool)
    ensures range == 0 ==> r
    ensures sx == master.x && sy == master.y ==> r
    ensures r && range > 0 ==> && -(range as real) < sx - master.x < range as real
                               && -(range as real) < sy - master.y < range as real
    ensures var half := range as real / 2.0;
            (-half < sx - master.x < half && -half < sy - master.y < half) ==> r
  {
    var ok := range == 0 || SquaredPlanarDistance(sx, sy, master) < (range * range) as real;
    var half := range as real / 2.0;
    if range > 0 && -half < sx - master.x < half && -half < sy - master.y < half then
      SquareBelow(sx - master.x, half);
      SquareBelow(sy - master.y, half);
      assert (range * range) as real == 4.0 * half * half;
      ok
    else if ok && range > 0 then
      SquareBelowBounds(sx - master.x, sy - master.y, range as real);
      SquareBelowBounds(sy - master.y, sx - master.x, range as real);
      ok
    else ok
  }

  /** A value strictly between -h and h has a square below h * h. */
  lemma SquareBelow(a: real, h: real)
    requires -h < a < h
    ensures a * a < h * h
  {
    assert (h - a) * (h + a) == h * h - a * a;
    assert (h - a) * (h + a) > 0.0;
  }

  /** When two squares together stay below `b * b`, the first root lies strictly between -b and b. */
  lemma SquareBelowBounds(a: real, c: real, b: real)
    requires b > 0.0
    requires a * a + c * c < b * b
    ensures -b < a < b
  {
    assert c * c >= 0.0;
    assert (b - a) * (b + a) == b * b - a * a;
  }

  /** A wider search range never drops a master a narrower positive one found. */
  lemma InRangeMonotone(r1: nat, r2: nat, sx: real, sy: real, master: Pos)
    requires 0 < r1 <= r2
    requires InRange(r1, sx, sy, master)
    ensures InRange(r2, sx, sy, master)
  {
    assert r1 * r1 <= r1 * r2 <= r2 * r2;
    assert SquaredPlanarDistance(sx, sy, master) < (r1 * r1) as real <= (r2 * r2) as real;
  }

  /** Linking range is symmetric: only the two planar positions matter. */
  lemma InRangeSymmetric(range: nat, a: Pos, b: Pos)
    ensures InRange(range, a.x, a.y, b) == InRange(range, b.x, b.y, a)
  {
    assert (a.x - b.x) * (a.x - b.x) == (b.x - a.x) * (b.x - a.x);
    assert (a.y - b.y) * (a.y - b.y) == (b.y - a.y) * (b.y - a.y);
  }
}

=== FILE: Wrappers.dfy ===
// Optional values and check results.
module Wrappers {

  /** A value that may be absent: a C++ pointer that may be null. */
  datatype Option<+T> = None | Some(value: T)

  /** The outcome of a check that either accepts a value or names why it was refused. */
  datatype Result<+T, +E> = Ok(value: T) | Err(error: E)
}
